=== FILE: README.md ===
# moseq2-pca: a Dafny model of the PCA, scoring and changepoint core

moseq2-pca takes depth-video frames of a mouse. It learns a low-rank PCA basis
from them, scores every session against that basis, and detects model-free
changepoints in the scores. This project models the decision logic and the
element-wise numerics of that pipeline in Dafny and proves properties of the model:

- **Training** (`train_pca_dask`, `compute_svd`, `compute_explained_variance`):
  - the fixed-iteration imputation loop of missing-data mode;
  - the `mask_data` merge;
  - height zeroing of reconstructions;
  - the sign normalisation of the components;
  - the explained-variance formulas.
- **Scoring** (`apply_pca_local`, `apply_pca_dask`):
  - projection with a single re-projection pass for missing data;
  - the batched write loop, in which batches are as large as the worker count and finished futures are located by `keys.index`;
  - the `scores/<uuid>` and `scores_idx/<uuid>` datasets it writes;
  - the timestamps each session is reindexed with.
- **Changepoints** (`get_changepoints_dask`):
  - the per-session setup;
  - the missing-data merge from stored scores, with the skip when the scores do not cover the frames;
  - the write loop of `cps_score/<uuid>` and `cps/<uuid>`.
- **Helpers** (`helpers/data.py`): resolving the PCA and scores paths, and packing the changepoint, mask and filter parameters.
- **Wrappers** (`helpers/wrappers.py`):
  - the search directory;
  - the refusal of FFT with missing data, before the prompt or the yaml write;
  - the overwrite prompt;
  - the PCA-file resolution of the apply step;
  - training-frame preparation and its mask;
  - the block durations.
- **CLI** (`cli.py`): the Azure Kinect default remapping of `train-pca`.

Python dictionaries become `map<string, Value>` with Python's truthiness and
`==`. `KeyError`, `ValueError`, `IOError` and the other exceptions become
`Failure` values of `Outcomes.Result`. Floating point is modelled by exact
reals. A numpy result that is NaN or infinite becomes `None`.

Some numeric routines and I/O sources enter as parameters, about which
nothing is assumed:

- the SVD;
- the low-rank reconstruction;
- `insert_nans`;
- the changepoint detector;
- the user's answer at the overwrite prompt;
- the start time.

Files are modelled as sets of existing paths and maps from paths to contents.

Modules follow the source: `Imputation`, `Components`, `Masking` and
`Matrix` for `pca/util.py` training; `Scoring`, `Timestamps` and `ApplyDriver`
for scoring; `ChangepointDriver` for changepoints; `Batching` for the batch
loops and the output file; `PcaData` for `helpers/data.py`; `PcaWrappers` for
`helpers/wrappers.py`; `Cli` for `cli.py`; `PyValues`, `Paths` and `Outcomes`
for the Python semantics they rely on.

Where the code and the design description of the system disagree, the model
follows the code:

- **Zeroing, not clipping.** Reconstructions and training frames outside
  [min_height, max_height] are set to 0, not clamped to the violated bound
  (`Masking.ZeroOutsideIsNotClamp`).
- **No zeroing in the changepoint merge.** The merge of `get_changepoints_dask`
  takes the raw reconstruction, with no zeroing at all
  (`Scoring.ChangepointMergeDoesNotZero`).
- **A failed session stops the driver, and the wrapper swallows it.** Any
  failure while a session is scored or written ends the whole driver run
  (`Result` propagation); no session is skipped on error. The only skip is
  the one of lines 504-506, where the stored scores do not cover the frames.
  The apply and changepoint wrappers catch every exception from the driver
  with a bare `except:`, print "Operation interrupted" and carry on
  (wrappers.py lines 319-330 and 402-411). Apply still records
  `pca_file_scores` (line 342), and the changepoint wrapper reads whatever
  `<save_file>.h5` holds and computes block durations from it (lines
  423-428). The drivers' failures are modelled; the swallowing is not.
- **Results in submission order.** The model takes each batch's results in
  submission order, not completion order.
- **An empty PCA file after a failed training.** When training raises, the
  training wrapper still opens `<save_file>.h5` for writing. `output_dict`
  is then unbound and the write fails with a `NameError`, leaving an empty
  or truncated file (wrappers.py lines 174-219). Only the refusal of FFT with
  missing data is modelled as happening before the prompt and the yaml
  write; the decorator's `os.makedirs(output_dir)` and session search
  (wrappers.py lines 49-61) run before it and are not modelled.
- **Two shapes of structuring-element argument.** The training wrapper builds
  the structuring element from ONE tuple `(shape, size)` (wrappers.py line
  125). `get_pca_yaml_data` passes the shape and `tuple(size)` separately
  (data.py line 119). `PcaWrappers.TrainCleanParams` and `PcaData.TailFilter`
  keep the two call shapes apart.
- **The mean is not subtracted before scoring.** The trained mean is not
  subtracted before projection in scoring (util.py lines 317 and 398).

## Model

| member | source | states |
|---|---|---|
| Matrix.ColumnMean | moseq2_pca/pca/util.py:74 | each entry of the new mean times the row count is that column's sum |
| Matrix.Center | moseq2_pca/pca/util.py:65 | centring subtracts the mean column-wise: adding the mean back gives the input |
| Matrix.Project | moseq2_pca/pca/util.py:317 | score (i, k) is the inner product of frame i with component k; shape frames x components |
| Matrix.Compose | moseq2_pca/pca/util.py:322 | reconstruction (i, j) is score row i weighted over column j of the components; shape frames x pixels |
| Matrix.TotalVariance | moseq2_pca/pca/util.py:76 | the ddof=1 variance sum is NaN exactly when there is one row and at least one column, and is otherwise non-negative |
| Masking.ZeroOutside | moseq2_pca/pca/util.py:71-72 | in-range values are kept, out-of-range values become 0, so the result is 0 or within [lo, hi] |
| Masking.ZeroOutsideIdempotent | moseq2_pca/pca/util.py:71-72 | zeroing a zeroed value changes nothing |
| Masking.ZeroOutsideIsNotClamp | moseq2_pca/pca/util.py:71-72 | a value above a non-zero upper bound does not become that bound |
| Masking.ZeroMatrix | moseq2_pca/pca/util.py:323-324 | every element is zeroed by the scalar rule and the shape is kept |
| Masking.ZeroMatrixInRange | moseq2_pca/pca/util.py:402-403 | after zeroing every element is 0 or in range, and in-range elements are unchanged |
| Masking.ZeroMatrixIdempotent | moseq2_pca/pca/util.py:323-324 | zeroing a matrix twice equals zeroing it once |
| Masking.MaskData | moseq2_pca/pca/util.py:29-33 | masked cells come from the new data, all other cells from the original; the shape is kept |
| Masking.MaskDataIdempotent | moseq2_pca/pca/util.py:30-31 | merging the same data twice is merging once |
| Masking.MaskDataOverwrites | moseq2_pca/pca/util.py:30-31 | a second merge with the same mask overrides the first: only the last reconstruction survives |
| Masking.ZeroMasked | moseq2_pca/pca/util.py:195 | masked cells become 0, the rest are kept |
| Masking.BuildMask | moseq2_pca/pca/util.py:381-382 | a pixel is invalid iff its mask value is below the mask threshold and its depth above the height threshold |
| Imputation.ImputeStep | moseq2_pca/pca/util.py:68-74 | one imputation keeps unmasked cells, puts masked cells in range, recomputes the column mean, and fails with ValueError exactly on a mis-shaped reconstruction |
| Imputation.Impute | moseq2_pca/pca/util.py:67-74 | zero steps change nothing; any number of steps keeps the shapes, and a failure is the shape ValueError |
| Imputation.ImputeOnlyMasked | moseq2_pca/pca/util.py:67-74 | after k steps the observed cells still hold the input; after one or more steps the masked cells are in range and the mean is the column mean |
| Imputation.ImputeFailurePersists | moseq2_pca/pca/util.py:67-73 | once an imputation fails, every longer run fails the same way |
| Imputation.SvdResult | moseq2_pca/pca/util.py:64-76 | without missing data: one SVD of the centred input; with `iters == 0`: `s` unbound; with one iteration: no imputation; otherwise the SVD and variance of the imputed array |
| Imputation.SvdResultOnlyMasked | moseq2_pca/pca/util.py:67-74 | the array behind the result differs from the input only in masked cells; after one or more imputations those are in range and the mean is the column mean |
| Imputation.ImputeNext | moseq2_pca/pca/util.py:67-74 | one more imputation continues from the state k imputations left |
| Imputation.SvdResultAfterImputing | moseq2_pca/pca/util.py:67-76 | the result is the last SVD, of the array the `iters - 1` imputations left |
| Imputation.SvdResultFailedImputing | moseq2_pca/pca/util.py:69-73 | an imputation failing before the last pass is the result of the whole run |
| Imputation.ImputingPass | moseq2_pca/pca/util.py:68-74 | one imputing pass computes exactly one more imputation step and runs one SVD |
| Imputation.ImputingPasses | moseq2_pca/pca/util.py:67-74 | the loop of imputing passes computes `n` imputation steps, counts `n` passes on success, and one SVD per pass run |
| Imputation.LastPass | moseq2_pca/pca/util.py:68-76 | the last pass's single SVD and variance are the run's result |
| Imputation.ImputationLoop | moseq2_pca/pca/util.py:66-76 | the missing-data loop computes the loop-free result; on success it ran `iters` SVDs and `iters - 1` imputations |
| Imputation.ComputeSvd | moseq2_pca/pca/util.py:64-82 | `compute_svd` returns the loop-free result, with one SVD without missing data |
| Components.ArgMaxAbs | moseq2_pca/pca/util.py:245 | the index has maximum magnitude and is the first such index |
| Components.ArgMaxAbsDependsOnMagnitudes | moseq2_pca/pca/util.py:245 | rows with equal magnitudes have the same argmax |
| Components.FixRowSign | moseq2_pca/pca/util.py:245-247 | the row is multiplied by one sign: every entry is kept, or every entry is negated; magnitudes and argmax are kept, the largest entry becomes non-negative, and an all-zero row is unchanged |
| Components.FixRowSignIdempotent | moseq2_pca/pca/util.py:245-247 | correcting a corrected row changes nothing |
| Components.CorrectSigns | moseq2_pca/pca/util.py:245-247 | every row is sign-corrected; zero-width rows make argmax raise ValueError |
| Components.CorrectSignsNormalises | moseq2_pca/pca/util.py:245-247 | each corrected component is its SVD row or that row negated, has a non-negative first largest entry, keeps magnitudes and argmax, and is a fixed point |
| Components.ExplainedVariance | moseq2_pca/pca/util.py:101-102 | explained variance times (n - 1) is s squared and non-negative; the ratio times the total variance is the explained variance; undefined exactly on division by zero or NaN |
| Components.TrainFromCleaned | moseq2_pca/pca/util.py:219-259 | training succeeds iff the SVD stage succeeds, its components have the frame width and that width is non-zero; an SVD failure is passed on unchanged, mismatched components and an empty width raise ValueError; the model's mean has the frame width, every component row has a non-negative largest entry, the variance vectors match the singular values, and missing data with no iterations fails on the unbound `s` |
| Components.TrainFromCleanedReportsSvd | moseq2_pca/pca/util.py:240-257 | the model is the last SVD with sign-corrected rows, its singular values, mean and variances; in missing-data mode the data behind it agree with the input off the mask |
| Timestamps.Seconds | moseq2_pca/pca/util.py:123 | each timestamp times 1000 is the stored millisecond value |
| Timestamps.FrameClock | moseq2_pca/pca/util.py:129 | one entry per frame, entry i times fps is i |
| Timestamps.GetTimestamps | moseq2_pca/pca/util.py:121-131 | `/timestamps` takes priority over `/metadata/timestamps`, both scaled from ms; without either, the frame clock |
| Timestamps.FrameCountOnlyMattersWithoutTimestamps | moseq2_pca/pca/util.py:121-129 | two frame counts give equal timestamps iff the file has timestamps or the counts agree |
| Timestamps.FrameClockIncreasing | moseq2_pca/pca/util.py:129 | with positive fps the fallback clock starts at 0 and strictly increases |
| Scoring.ScoreSession | moseq2_pca/pca/util.py:317-326 | scores are the projection of the final frames; with a mask, unmasked cells are kept and masked cells hold the zeroed reconstruction of the first scores |
| Scoring.ScoreSessionMergeIsStable | moseq2_pca/pca/util.py:321-326 | merging the same zeroed reconstruction again leaves the imputed frames unchanged |
| Scoring.ChangepointFrames | moseq2_pca/pca/util.py:512-514 | unmasked cells are kept, masked cells hold the raw reconstruction from the stored scores |
| Scoring.ChangepointMergeDoesNotZero | moseq2_pca/pca/util.py:512-514 | a reconstruction above max_height survives the changepoint merge but is zeroed by the scoring merge |
| Scoring.UnitReconstruction | moseq2_pca/pca/util.py:317-322 | with the single component [1], projection and reconstruction of 2 give 2 |
| Scoring.ChangepointMergeKeeps | moseq2_pca/pca/util.py:512-514 | the changepoint merge keeps the reconstruction 2 |
| Scoring.ScoringMergeZeroes | moseq2_pca/pca/util.py:321-325 | the scoring merge zeroes the reconstruction 2 above max_height 1 |
| Paths.Join | moseq2_pca/helpers/data.py:30 | an absolute second part replaces the first; otherwise the parts are joined by one slash |
| Paths.JoinEndsWith | moseq2_pca/helpers/data.py:30 | the second part always ends the joined path |
| Paths.StripExt | moseq2_pca/helpers/data.py:62 | the result is a prefix of the path; a path whose last dot is not in its final component is unchanged; when something is cut, the cut starts at a dot of the final component and the rest holds no other dot or slash |
| Paths.Exists | moseq2_pca/helpers/data.py:33 | a string path exists iff it is in the file set; any other value, and only such a value, is refused with TypeError |
| Paths.StripExtAt | moseq2_pca/helpers/data.py:62 | a final component with a non-dot character before its last dot loses exactly the part from that dot on |
| Paths.JoinNameIsLastComponent | moseq2_pca/helpers/data.py:30 | joining a slash-free name puts it after the last slash |
| Paths.YamlBesideDefaultPca | moseq2_pca/helpers/data.py:62 | the settings file beside `dir/pca.h5` is `dir/pca.yaml` |
| PcaData.ChangepointParams | moseq2_pca/helpers/data.py:81-88 | succeeds iff all five keys are present; the first absent key in literal order raises KeyError; the values are renamed to k, sigma, peak_height, peak_neighbors, rps |
| PcaData.MissingDataMaskParams | moseq2_pca/helpers/data.py:69-74 | the two mask thresholds are copied, and the first one absent raises KeyError |
| PcaData.MaskParams | moseq2_pca/helpers/data.py:130-136 | the four mask values are copied, and the first one absent raises KeyError |
| PcaData.GetPcaPaths | moseq2_pca/helpers/data.py:25-40 | an absent or None `pca_file` defaults to `pca.h5` in the output directory; a given string `pca_file` succeeds iff that file exists, else IOError names it; a missing file raises IOError; the scores path defaults to `pca_scores.h5`; the config records both and keeps the rest |
| PcaData.LoadPcsForCp | moseq2_pca/helpers/data.py:57-90 | a missing PCA file or `pca_path` fails first; success needs the yaml; with the yaml, loading succeeds iff the changepoint parameters exist and, in missing-data mode, the mask parameters exist and `pca_file_scores` names an existing file; the failures come in source order: the mask parameters' KeyError, KeyError for `pca_file_scores`, TypeError for a non-string path, the RuntimeError asking for apply-pca, then the changepoint parameters' KeyError; mask parameters exist iff missing data is on |
| PcaData.MissingScoresFileRejected | moseq2_pca/helpers/data.py:78-79 | in missing-data mode a scores path naming no file raises RuntimeError |
| PcaData.NoYamlNeverLoads | moseq2_pca/helpers/data.py:64-90 | without the yaml the return fails on the unbound `missing_data` |
| PcaData.TailFilter | moseq2_pca/helpers/data.py:119 | the structuring element is built from the shape and `tuple(size)`; either key missing raises KeyError |
| PcaData.CleanParams | moseq2_pca/helpers/data.py:122-128 | succeeds iff the four filter keys exist, and otherwise raises KeyError for the first key the literal reads that is missing; the dict holds them unchanged plus the tail filter |
| PcaData.GetPcaYamlData | moseq2_pca/helpers/data.py:106-140 | a missing yaml raises IOError; otherwise success iff the tail filter, filter and mask parameters all pack; `use_fft` and `missing_data` default to False |
| PcaData.DefaultPcaYaml | moseq2_pca/helpers/data.py:26-40 | for a defaulted PCA file the settings consulted are `pca.yaml` in the output directory |
| PcaWrappers.SearchDirectory | moseq2_pca/helpers/wrappers.py:53-61 | only a wrapper whose name contains "changepoints" searches `aggregate_results/`, and only when it exists |
| PcaWrappers.SearchDirectoryByWrapper | moseq2_pca/helpers/wrappers.py:53-61 | train and apply search the input directory; changepoints prefers `aggregate_results/` |
| PcaWrappers.ResolveApplyPcaFile | moseq2_pca/helpers/wrappers.py:267-283 | a None or non-existent `pca_file` becomes `pca.h5` in the output directory; a missing default raises IOError; a non-string raises TypeError; the config records the choice |
| PcaWrappers.ApplyPcaInputs | moseq2_pca/helpers/wrappers.py:265-343 | the apply run succeeds iff the PCA file resolves and the yaml beside it reads, and otherwise fails with the first failing step's error; it loads the resolved PCA file, reads the yaml beside it, and records the scores file it writes |
| PcaWrappers.ApplyThenChangepointPaths | moseq2_pca/helpers/data.py:25-40 | the config returned by apply makes the changepoint step load the same PCA file and the scores file apply wrote |
| PcaWrappers.RunParams | moseq2_pca/helpers/wrappers.py:99-104 | the recorded parameters are the config plus the start time and input list |
| PcaWrappers.TrainCleanParams | moseq2_pca/helpers/wrappers.py:121-128 | succeeds iff all six keys exist, and otherwise raises KeyError for the first key the literal reads that is missing; the tail filter is built from the single tuple (shape, size) |
| PcaWrappers.FftWithMissingData | moseq2_pca/helpers/wrappers.py:96 | `use_fft` is read only when missing data is on; an absent key raises KeyError |
| PcaWrappers.TrainPcaStart | moseq2_pca/helpers/wrappers.py:96-128 | FFT with missing data raises before the prompt or the yaml write; an existing output prompts, and any answer but y returns the config; otherwise the effects are exactly the prompt (when the output exists) followed by the yaml write, and the run proceeds iff the filter parameters can be packed |
| PcaWrappers.FftRejectedBeforePrompt | moseq2_pca/helpers/wrappers.py:96-97 | the NotImplementedError happens iff both options are on, and then nothing was prompted and no yaml written |
| PcaWrappers.PrepareTrainingFrames | moseq2_pca/helpers/wrappers.py:137-139 | stacked frames outside [min_height, max_height] become 0, others are kept |
| PcaWrappers.TrainingMask | moseq2_pca/helpers/wrappers.py:160-171 | no mask without missing data; with it, a mask is built iff both thresholds are numbers, and otherwise the first threshold's error (KeyError for `mask_threshold`, then for `mask_height_threshold`) is raised; a pixel is invalid iff its mask value is below the threshold and its zeroed depth above the height threshold |
| PcaWrappers.ZeroedPixelsNeverMasked | moseq2_pca/helpers/wrappers.py:138-167 | with a non-negative height threshold, a pixel zeroed for its height is never marked invalid |
| PcaWrappers.Diff | moseq2_pca/helpers/wrappers.py:428 | one difference fewer than values, each the step between neighbours |
| PcaWrappers.DiffTelescopes | moseq2_pca/helpers/wrappers.py:428 | a session's durations sum to its last minus its first changepoint |
| PcaWrappers.ConcatDiffs | moseq2_pca/helpers/wrappers.py:428 | the concatenated durations have one fewer entry than changepoints per non-empty session |
| PcaWrappers.BlockDurations | moseq2_pca/helpers/wrappers.py:428 | concatenating no sessions raises ValueError; otherwise the duration count is as above |
| PcaWrappers.BlockDurationsTotal | moseq2_pca/helpers/wrappers.py:428 | all block durations sum to the total span of the sessions' changepoints |
| PcaWrappers.ConcatDiffsSum | moseq2_pca/helpers/wrappers.py:428 | the concatenated durations sum to the total span |
| PcaWrappers.IncreasingGivesPositiveDurations | moseq2_pca/helpers/wrappers.py:428 | strictly increasing changepoint times give only positive durations |
| Cli.Remap | moseq2_pca/cli.py:109-112 | a value Python-equal to the old default is replaced, any other kept; an absent key raises KeyError |
| Cli.AzureDefaults | moseq2_pca/cli.py:106-112 | non-Azure arguments are unchanged; for Azure the Kinect v2 filter defaults become the Azure ones, in order, with KeyError for a missing key |
| Cli.AzureDefaultsIdempotent | moseq2_pca/cli.py:106-112 | applying the remap twice equals applying it once |
| Cli.DefaultRecognisedAcrossNumberTypes | moseq2_pca/cli.py:109-110 | `(1.5, 1.0)` is recognised as the default but the list `[1.5, 1]` is not |
| PyValues.ToTuple | moseq2_pca/helpers/data.py:119 | lists and tuples convert element-wise, a string into its one-character strings in order, anything else raises TypeError |
| Batching.Batches | moseq2_pca/pca/util.py:416-420 | batches are non-empty, full except the last, and concatenate to the list |
| Batching.BatchStart | moseq2_pca/pca/util.py:416-419 | batch k is the slice starting at `k * size` |
| Batching.BatchesCover | moseq2_pca/pca/util.py:416-419 | every start `k * size` inside the list opens a batch; with `BatchStart` it lets the loop of `ApplyScoresBatched` show that its k-th window is batch k |
| Batching.BatchElement | moseq2_pca/pca/util.py:419-421 | position j of batch k is element `k * size + j` |
| Batching.BatchesAligned | moseq2_pca/pca/util.py:419-421 | futures, uuids and files batched with one size stay aligned |
| Batching.BatchLength | moseq2_pca/pca/util.py:419 | a batch's length depends only on the list length |
| Batching.BatchCount | moseq2_pca/pca/util.py:416 | the number of batches is `len(range(0, n, size))` |
| Batching.BatchTotal | moseq2_pca/pca/util.py:416 | `len(range(0, n, size))` is the c with `(c - 1) * size < n <= c * size` |
| Batching.IndexOf | moseq2_pca/pca/util.py:428 | the first position of the key; an absent key raises ValueError |
| Batching.IndexOfDistinct | moseq2_pca/pca/util.py:422-428 | with distinct keys the lookup recovers the submission position |
| Batching.WriteAll | moseq2_pca/pca/util.py:437-440 | writes succeed iff no name exists or repeats; the result holds the old entries and each written value; a clash raises ValueError |
| Batching.WriteFacts | moseq2_pca/pca/util.py:437-440 | the write loop succeeds iff the names are fresh, and then it holds exactly the old and the written names |
| ApplyDriver.NamesDistinct | moseq2_pca/pca/util.py:437-440 | score and index names never collide, and equal names mean equal uuids |
| ApplyDriver.SessionTimestamps | moseq2_pca/pca/util.py:431 | corrected: the fallback clock of a session without timestamps has one entry per frame of that session |
| ApplyDriver.SessionTimestampsAsWritten | moseq2_pca/pca/util.py:431 | as written: the fallback clock has one entry per frame of the LAST session loaded |
| ApplyDriver.StaleFrameCountCounterexample | moseq2_pca/pca/util.py:431 | two sessions of 2 and 1 frames: as written the first gets a 1-entry clock, corrected a 2-entry one |
| ApplyDriver.SessionWrites | moseq2_pca/pca/util.py:434-440 | a session writes `scores/<uuid>` then `scores_idx/<uuid>` |
| ApplyDriver.ScoreWrites | moseq2_pca/pca/util.py:437-440 | two writes per session |
| ApplyDriver.ScoreWritesAt | moseq2_pca/pca/util.py:437-440 | session i's writes sit at positions 2i and 2i+1 |
| ApplyDriver.ScoreWritesNames | moseq2_pca/pca/util.py:437-440 | every written name belongs to one of the sessions |
| ApplyDriver.ScoreWritesFresh | moseq2_pca/pca/util.py:437-440 | distinct uuids make every written name fresh |
| ApplyDriver.SessionStep | moseq2_pca/pca/util.py:437-440 | a session's two writes either fail as the rest of the run fails, or hand over to the next session's writes |
| ApplyDriver.WriteResult | moseq2_pca/pca/util.py:426-440 | the finished future located by its key writes the right session's datasets, consistent with writing all sessions in order |
| ApplyDriver.ApplyBatch | moseq2_pca/pca/util.py:417-440 | a batch writes its sessions as the sequential write list does |
| ApplyDriver.ApplyScoresBatched | moseq2_pca/pca/util.py:411-440 | with zero workers `range` raises ValueError; otherwise the batched loop produces exactly the store of writing every session in order with its own timestamps |
| ApplyDriver.ScoreWritesStoreEverySession | moseq2_pca/pca/util.py:437-440 | with distinct uuids every session's padded scores and index are stored under its uuid |
| ChangepointDriver.RealRows | moseq2_pca/pca/util.py:502 | one row kept per non-NaN index entry |
| ChangepointDriver.RealRowsAt | moseq2_pca/pca/util.py:502 | a kept row lands after the kept rows before it |
| ChangepointDriver.RealRowsInOrder | moseq2_pca/pca/util.py:502 | every row with a numeric index entry is kept, at the position given by the numeric entries before it |
| ChangepointDriver.RealRowsAllReal | moseq2_pca/pca/util.py:502 | with no NaN index every row is kept |
| ChangepointDriver.StoredScores | moseq2_pca/pca/util.py:499-502 | a missing scores or index dataset raises KeyError; the rows read are as many as the non-NaN index entries, and each non-NaN-indexed row appears in its original order |
| ChangepointDriver.PlanSession | moseq2_pca/pca/util.py:479-521 | no uuid raises KeyError; missing data without scores raises RuntimeError; without missing data the frames and own timestamps are queued; a successful missing-data setup had numeric thresholds and readable scores, and skips the session exactly when the non-NaN score rows are not as many as its frames; given numeric thresholds and readable scores, the setup succeeds exactly when it skips or every score row has one entry per component; unmasked cells are kept |
| ChangepointDriver.PlanMasked | moseq2_pca/pca/util.py:494-517 | a missing threshold key raises KeyError in the order read, a non-number threshold TypeError, a stored-scores error propagates; with readable scores it skips iff the rows do not cover the frames, succeeds iff it skips or every row has one entry per component, and otherwise fails with the shape ValueError |
| ChangepointDriver.CoveredSessionQueued | moseq2_pca/pca/util.py:494-521 | a missing-data session with numeric thresholds whose stored scores cover its frames with one entry per component is queued |
| ChangepointDriver.PlanSessionFrames | moseq2_pca/pca/util.py:494-517 | a queued missing-data session holds its frames with invalid pixels zeroed and then replaced by the raw reconstruction `scores.dot(components)` |
| ChangepointDriver.PlanChangepoints | moseq2_pca/pca/util.py:478-521 | at most one plan per session, exactly one without missing data |
| ChangepointDriver.PlanSucceeds | moseq2_pca/pca/util.py:478-521 | the setup loop succeeds iff every session's setup does |
| ChangepointDriver.PlanSessionKeepsCovered | moseq2_pca/pca/util.py:504-506 | a successful missing-data setup queues a session iff its stored scores cover its frames |
| ChangepointDriver.PlanWithMissingData | moseq2_pca/pca/util.py:478-521 | in missing-data mode a successful run plans exactly the sessions whose stored scores cover their frames, in order, each as its own setup queued it |
| ChangepointDriver.PlanWithoutMissingData | moseq2_pca/pca/util.py:478-521 | without missing data the run succeeds iff every session has a uuid, and plans each with its own frames and timestamps in order |
| ChangepointDriver.MissingScoresStopsRun | moseq2_pca/pca/util.py:489-490 | missing data without a scores file stops the run at the first session |
| ChangepointDriver.PerFrameRate | moseq2_pca/pca/util.py:546 | each stored time times fps is the detector's changepoint, counted in frames |
| ChangepointDriver.SessionCpWrites | moseq2_pca/pca/util.py:543-547 | both results present: score trace then times are written; otherwise nothing |
| ChangepointDriver.ComputeChangepoints | moseq2_pca/pca/util.py:524-547 | the batch loop with batch size 1 writes the frame rate and then every session in order |
| ChangepointDriver.CpNamesDistinct | moseq2_pca/pca/util.py:528-547 | changepoint names never collide with each other or with `metadata/fps` |
| ChangepointDriver.CpWritesNames | moseq2_pca/pca/util.py:543-547 | every written name is a detected session's name |
| ChangepointDriver.CpWritesPosition | moseq2_pca/pca/util.py:543-547 | a detected session's two writes are adjacent |
| ChangepointDriver.CpWritesFresh | moseq2_pca/pca/util.py:528-547 | distinct uuids make every changepoint write fresh |
| ChangepointDriver.CpWritesStored | moseq2_pca/pca/util.py:526-547 | with distinct uuids the file holds the frame rate and, per session, its trace and times exactly when both results exist |
| ChangepointDriver.ApplyThenReadBack | moseq2_pca/pca/util.py:437-502 | scores written by the apply loop are read back unchanged by the changepoint step when the reindexer pads only with NaN-indexed rows |

## Left out

- The numerics (SVD, reconstruction, Gaussian and median filters, tail filter, FFT, `insert_nans`, `get_rps`, `get_changepoints`) are function parameters with no assumed properties. `clean_frames`, `select_strel`, `read_yaml` and `h5_to_dict` are not part of this model.
- h5 and yaml I/O become maps keyed by path and dataset name. A dataset's dtype, compression and chunking are not modelled.
- Dask scheduling is not modelled: `initialize_dask`, `client.compute`, persistence, progress bars, logging and client shutdown.
- `as_completed` order is not modelled: results are taken in submission order. With distinct dataset names the final file does not depend on the order, but that is not proved here.
- `copy_metadatas_to_scores` (util.py lines 133-155) copies opaque metadata groups and is not modelled.
- The frame matrix is modelled already flattened (frames x pixels). Zeroing, masking and merging are element-wise, so they commute with the reshape.
- `apply_pca_local` writes the same `scores/<uuid>` and `scores_idx/<uuid>` list as `ApplyDriver.ScoreWrites`, one session after the other. Its loop is covered by `Batching.WriteAll` over that list and has no member of its own.
- The training wrapper after the stacked frames are prepared (Dask start-up, plotting, writing `pca.h5`) is not modelled beyond the notes above.
- `changepoint_params.pop('rps')` and the detector's arguments are inside the detector parameter.
- ChangepointDriver.PerFrameRate: requires fps != 0, as do ChangepointDriver.PlanSession, ChangepointDriver.PlanChangepoints, ChangepointDriver.SessionCpWrites, ChangepointDriver.CpWrites and ChangepointDriver.ComputeChangepoints. util.py lines 487 and 546 accept 0, and numpy then produces infinities or NaN rather than raising, which the model does not represent.
- The bare `except:` around the drivers in the apply and changepoint wrappers (wrappers.py lines 319-330 and 402-411) is not modelled: a driver failure is the model's result, while the source prints a message, records `pca_file_scores` and, for changepoints, computes block durations from the partial file.
- Timestamps.GetTimestamps: requires fps != 0. numpy would produce infinities rather than raise, which the model does not represent.
- ApplyDriver.ApplyScoresBatched: models the corrected clock of line 431 (each session's own frame count), not the stale `frames` of the last-loaded session; see Findings. It requires fps != 0 for the same reason, and takes each session's timestamps computed before the loop rather than inside it. It also requires distinct dask keys, which dask guarantees.
- ChangepointDriver.PlanSession: requires each session's mask to have the frames' shape and the components the frame width. numpy would raise on a mismatch, and the model does not represent that error.
- Components.TrainFromCleaned: requires a rectangular frame matrix. It also adds a shape guard on the SVD output, because the SVD parameter is arbitrary while the real SVD always returns rows of the frame width.
- Components.ExplainedVariance: does not prove that the ratios sum to at most 1, which depends on properties of the SVD left out here.
- Matrix.ColumnMean: requires at least one row. numpy's mean of an empty array is NaN with a warning.
- Paths.Exists: refuses every non-string with TypeError. Python's `os.path.exists` hands an integer (or bool) to `os.stat` as a file descriptor and answers True or False; open descriptors are not part of this model.
- PyValues.Lower: lower-cases ASCII letters only. Python's full Unicode case mapping is not modelled.
- Cli.AzureDefaults: models only the Azure remapping of `train-pca`. The other commands are option plumbing.
- Imputation.ImputeStep: folds each imputing pass's SVD into the step. The loop therefore runs the `iters - 1` imputing passes and then the final SVD, which is the same sequence of SVDs as the source's loop.

## Findings

| source | as written | input that shows it | evidently intended | confidence | as-written member | corrected member |
|---|---|---|---|---|---|---|
| moseq2_pca/pca/util.py:431 | the fallback timestamp clock of each written session is sized by `frames`, the variable left over from the loading loop, i.e. the last session's frame count | two sessions without stored timestamps, of 2 and 1 frames: the first session's 2 score rows get a 1-entry clock | each session's clock is sized by its own frame count | high; not executed | ApplyDriver.SessionTimestampsAsWritten (counterexample ApplyDriver.StaleFrameCountCounterexample) | ApplyDriver.SessionTimestamps (used through ApplyDriver.AllTimestamps by ApplyDriver.ApplyScoresBatched) |

=== FILE: apply_driver.dfy ===
/** The output side of `apply_pca_dask`: sessions are computed in batches
    of `batch_size` (the worker count), and each finished session's padded
    scores and their index are written under its uuid. The per-session
    scores are inputs here (see `Scoring`); `insert_nans`, the gap-filling
    reindexer, is not part of this model and enters as a parameter. */
module ApplyDriver {
  import opened Outcomes
  import opened Matrix
  import opened Timestamps
  import opened Batching

  /** A stored dataset: the padded score rows, or the score index, in
      which `None` stands for the NaN that marks a padded (dropped) frame. */
  datatype Dataset = Table(rows: Mat) | Column(values: seq<Option<real>>)

  type Store = map<string, Dataset>

  /** `insert_nans(data=scores, timestamps=...)`: padded scores and score index. */
  type ReindexFn = (Mat, Vec) -> (Mat, seq<Option<real>>)

  const BatchSizeZero := "range() arg 3 must not be zero"

  function ScoresName(uuid: string): string {
    "scores/" + uuid
  }

  function IndexName(uuid: string): string {
    "scores_idx/" + uuid
  }

  /** One of the two dataset names of session `uuid`. */
  predicate NameOf(name: string, uuid: string) {
    name == ScoresName(uuid) || name == IndexName(uuid)
  }

  /** Dataset names of different sessions never collide, and the two names
      of one session differ. */
  lemma NamesDistinct(u: string, v: string)
    ensures ScoresName(u) != IndexName(v)
    ensures ScoresName(u) == ScoresName(v) ==> u == v
    ensures IndexName(u) == IndexName(v) ==> u == v
  {
    assert ScoresName(u)[6] == '/' && IndexName(v)[6] == '_';
    if ScoresName(u) == ScoresName(v) {
      assert u == ScoresName(u)[7..] == ScoresName(v)[7..] == v;
    }
    if IndexName(u) == IndexName(v) {
      assert u == IndexName(u)[11..] == IndexName(v)[11..] == v;
    }
  }

  /** The timestamps a session is reindexed with: its own file, and its own
      frame count for the fallback clock. */
  function SessionTimestamps(files: seq<H5File>, frameCounts: seq<nat>, j: nat, fps: int): (ts: Vec)
    requires j < |files| == |frameCounts| && fps != 0
    ensures NewTimestamps !in files[j] && OldTimestamps !in files[j] ==> |ts| == frameCounts[j]
  {
    GetTimestamps(files[j], frameCounts[j], fps)
  }

  /** The timestamps as line 431 computes them: `frames` there is the loop
      variable left over from the loading loop, i.e. the LAST session's
      frames, whatever session is being written. */
  function SessionTimestampsAsWritten(files: seq<H5File>, frameCounts: seq<nat>, j: nat, fps: int): (ts: Vec)
    requires j < |files| == |frameCounts| && fps != 0
    ensures NewTimestamps !in files[j] && OldTimestamps !in files[j] ==> |ts| == frameCounts[|frameCounts| - 1]
  {
    GetTimestamps(files[j], frameCounts[|frameCounts| - 1], fps)
  }

  /** The timestamps of every session, each from its own file. */
  function AllTimestamps(files: seq<H5File>, frameCounts: seq<nat>, fps: int): (ts: seq<Vec>)
    requires |files| == |frameCounts| && fps != 0
    ensures |ts| == |files|
  {
    seq(|files|, j requires 0 <= j < |files| => SessionTimestamps(files, frameCounts, j, fps))
  }

  /** Two sessions without stored timestamps, of 2 and 1 frames: as
      written, the first session gets a one-entry clock for its two frames. */
  lemma StaleFrameCountCounterexample()
    ensures var files: seq<H5File> := [map[], map[]];
      |SessionTimestampsAsWritten(files, [2, 1], 0, 30)| == 1
      && |SessionTimestamps(files, [2, 1], 0, 30)| == 2
  {
  }

  /** The two writes for one session. */
  function SessionWrites(uuid: string, timestamps: Vec, result: Mat, reindex: ReindexFn): (w: seq<(string, Dataset)>)
    ensures |w| == 2 && w[0].0 == ScoresName(uuid) && w[1].0 == IndexName(uuid)
  {
    var out := reindex(result, timestamps);
    [(ScoresName(uuid), Table(out.0)), (IndexName(uuid), Column(out.1))]
  }

  /** All writes, session after session in list order. */
  function ScoreWrites(uuids: seq<string>, stamps: seq<Vec>, results: seq<Mat>, reindex: ReindexFn): (w: seq<(string, Dataset)>)
    requires |stamps| == |uuids| && |results| == |uuids|
    ensures |w| == 2 * |uuids|
    decreases |uuids|
  {
    if |uuids| == 0 then []
    else
      SessionWrites(uuids[0], stamps[0], results[0], reindex)
      + ScoreWrites(uuids[1..], stamps[1..], results[1..], reindex)
  }

  /** Session `i`'s two writes sit at positions `2 * i` and `2 * i + 1`. */
  lemma {:induction false} ScoreWritesAt(uuids: seq<string>, stamps: seq<Vec>, results: seq<Mat>, reindex: ReindexFn, i: nat)
    requires |stamps| == |uuids| && |results| == |uuids|
    requires i < |uuids|
    ensures var w := ScoreWrites(uuids, stamps, results, reindex);
      var s := SessionWrites(uuids[i], stamps[i], results[i], reindex);
      w[2 * i] == s[0] && w[2 * i + 1] == s[1]
    decreases i
  {
    if i > 0 {
      ScoreWritesAt(uuids[1..], stamps[1..], results[1..], reindex, i - 1);
    }
  }

  /** Every written name belongs to one of the sessions. */
  lemma {:induction false} ScoreWritesNames(uuids: seq<string>, stamps: seq<Vec>, results: seq<Mat>, reindex: ReindexFn, k: nat)
    requires |stamps| == |uuids| && |results| == |uuids|
    requires k < 2 * |uuids|
    ensures exists i :: 0 <= i < |uuids| && NameOf(ScoreWrites(uuids, stamps, results, reindex)[k].0, uuids[i])
    decreases k
  {
    var w := ScoreWrites(uuids, stamps, results, reindex);
    if k < 2 {
      assert NameOf(w[k].0, uuids[0]);
    } else {
      var rest := ScoreWrites(uuids[1..], stamps[1..], results[1..], reindex);
      assert w[k] == rest[k - 2];
      ScoreWritesNames(uuids[1..], stamps[1..], results[1..], reindex, k - 2);
      var i :| 0 <= i < |uuids[1..]| && NameOf(rest[k - 2].0, uuids[1..][i]);
      assert NameOf(w[k].0, uuids[i + 1]);
    }
  }

  /** Distinct uuids give distinct dataset names, so no write collides. */
  lemma {:induction false} ScoreWritesFresh(uuids: seq<string>, stamps: seq<Vec>, results: seq<Mat>, reindex: ReindexFn)
    requires |stamps| == |uuids| && |results| == |uuids|
    requires Distinct(uuids)
    ensures Fresh(map[], ScoreWrites(uuids, stamps, results, reindex))
    decreases |uuids|
  {
    if |uuids| > 0 {
      var w := ScoreWrites(uuids, stamps, results, reindex);
      var rest := ScoreWrites(uuids[1..], stamps[1..], results[1..], reindex);
      ScoreWritesFresh(uuids[1..], stamps[1..], results[1..], reindex);
      NamesDistinct(uuids[0], uuids[0]);
      forall a, b | 0 <= a < b < |w|
        ensures w[a].0 != w[b].0
      {
        if b >= 2 {
          assert w[b] == rest[b - 2];
          if a < 2 {
            ScoreWritesNames(uuids[1..], stamps[1..], results[1..], reindex, b - 2);
            var i :| 0 <= i < |uuids[1..]| && NameOf(rest[b - 2].0, uuids[1..][i]);
            assert uuids[1..][i] == uuids[i + 1] != uuids[0];
            NamesDistinct(uuids[0], uuids[1..][i]);
            NamesDistinct(uuids[1..][i], uuids[0]);
          } else {
            assert w[a] == rest[a - 2];
          }
        }
      }
    }
  }

  /** Session `i`'s two writes either fail as writing from its position on
      fails, or leave the writes of the later sessions to do. */
  lemma SessionStep(uuids: seq<string>, stamps: seq<Vec>, results: seq<Mat>, reindex: ReindexFn, i: nat, store: Store)
    requires |stamps| == |uuids| && |results| == |uuids| && i < |uuids|
    ensures var all := ScoreWrites(uuids, stamps, results, reindex);
      var w := SessionWrites(uuids[i], stamps[i], results[i], reindex);
      && (w[0].0 in store || w[1].0 in store[w[0].0 := w[0].1] ==>
            Write(store, all[2 * i..]) == Failure(ValueError("name already exists")))
      && (w[0].0 !in store && w[1].0 !in store[w[0].0 := w[0].1] ==>
            Write(store[w[0].0 := w[0].1][w[1].0 := w[1].1], all[2 * (i + 1)..]) == Write(store, all[2 * i..]))
  {
    ScoreWritesAt(uuids, stamps, results, reindex, i);
    var all := ScoreWrites(uuids, stamps, results, reindex);
    var w := SessionWrites(uuids[i], stamps[i], results[i], reindex);
    WriteSessionStep(store, all, 2 * i, 2 * (i + 1), w);
  }

  /** One step of `Write` from position `p` on. */
  lemma WriteStep(store: Store, entries: seq<(string, Dataset)>, p: nat)
    requires p < |entries|
    ensures Write(store, entries[p..])
      == if entries[p].0 in store then Failure(ValueError("name already exists"))
         else Write(store[entries[p].0 := entries[p].1], entries[p + 1..])
  {
    assert entries[p..][1..] == entries[p + 1..];
  }

  /** The two writes of one session, from position `p` on. */
  lemma WriteSessionStep(store: Store, entries: seq<(string, Dataset)>, p: nat, q: nat, w: seq<(string, Dataset)>)
    requires p + 1 < |entries| && q == p + 2 && |w| == 2 && w[0] == entries[p] && w[1] == entries[p + 1]
    ensures w[0].0 in store || w[1].0 in store[w[0].0 := w[0].1] ==>
      Write(store, entries[p..]) == Failure(ValueError("name already exists"))
    ensures w[0].0 !in store && w[1].0 !in store[w[0].0 := w[0].1] ==>
      Write(store[w[0].0 := w[0].1][w[1].0 := w[1].1], entries[q..]) == Write(store, entries[p..])
  {
    WriteStep(store, entries, p);
    if w[0].0 !in store {
      WriteStep(store[w[0].0 := w[0].1], entries, p + 1);
    }
  }

  /** One finished result of a batch (lines 427-440): the `j`-th future of
      the batch `[lo, hi)` is located through `keys.index(future.key)`,
      which recovers its position because dask keys are distinct, and its
      uuid and timestamps (read from the session's file) name and reindex
      its two datasets. It fails as writing from its position on fails, or
      leaves the later sessions' writes to do. */
  method WriteResult(uuids: seq<string>, stamps: seq<Vec>, results: seq<Mat>, keys: seq<string>,
                     reindex: ReindexFn, lo: nat, hi: nat, j: nat, store: Store)
    returns (r: Result<Store>)
    requires |stamps| == |uuids| && |results| == |uuids| && |keys| == |uuids|
    requires Distinct(keys) && lo <= hi <= |uuids| && j < hi - lo
    ensures var all := ScoreWrites(uuids, stamps, results, reindex);
      && (r.Failure? ==> r == Write(store, all[2 * (lo + j)..]))
      && (r.Success? ==> Write(r.value, all[2 * (lo + j + 1)..]) == Write(store, all[2 * (lo + j)..]))
  {
    SessionStep(uuids, stamps, results, reindex, lo + j, store);
    var keysBatch := keys[lo..hi];
    assert Distinct(keysBatch);
    IndexOfDistinct(keysBatch, j);
    var fileIdx := IndexOf(keysBatch, keysBatch[j]).value;
    var k := lo + fileIdx;
    var w := SessionWrites(uuids[k], stamps[k], results[k], reindex);
    if w[0].0 in store || w[1].0 in store[w[0].0 := w[0].1] {
      return Failure(ValueError("name already exists"));
    }
    r := Success(store[w[0].0 := w[0].1][w[1].0 := w[1].1]);
  }

  /** One batch of the write loop (lines 418-440): sessions `lo` to `hi`,
      their results taken in submission order. Writing the batch into
      `store` and then the later sessions gives what writing from session
      `lo` on gives. */
  method ApplyBatch(uuids: seq<string>, stamps: seq<Vec>, results: seq<Mat>,
                    keys: seq<string>, reindex: ReindexFn, lo: nat, hi: nat, store: Store)
    returns (r: Result<Store>)
    requires |stamps| == |uuids| && |results| == |uuids| && |keys| == |uuids|
    requires Distinct(keys) && lo <= hi <= |uuids|
    ensures var all := ScoreWrites(uuids, stamps, results, reindex);
      && (r.Failure? ==> r == Write(store, all[2 * lo..]))
      && (r.Success? ==> Write(r.value, all[2 * hi..]) == Write(store, all[2 * lo..]))
  {
    ghost var all := ScoreWrites(uuids, stamps, results, reindex);
    ghost var target := Write(store, all[2 * lo..]);
    var written := store;
    var j := 0;
    while j < hi - lo
      invariant 0 <= j <= hi - lo
      invariant Write(written, all[2 * (lo + j)..]) == target
    {
      var next := WriteResult(uuids, stamps, results, keys, reindex, lo, hi, j, written);
      if next.Failure? {
        return next;
      }
      written := next.value;
      j := j + 1;
    }
    r := Success(written);
  }

  /** The batched write loop of `apply_pca_dask` (lines 411-440): batches of
      one session per worker, written in order into a fresh output file. */
  method ApplyScoresBatched(uuids: seq<string>, files: seq<H5File>, frameCounts: seq<nat>, results: seq<Mat>,
                            keys: seq<string>, workers: nat, fps: int, reindex: ReindexFn)
    returns (r: Result<Store>)
    requires |files| == |uuids| && |frameCounts| == |uuids| && |results| == |uuids| && |keys| == |uuids|
    requires Distinct(keys) && fps != 0
    ensures workers == 0 ==> r == Failure(ValueError(BatchSizeZero))
    ensures workers > 0 ==> r == WriteAll(map[], ScoreWrites(uuids, AllTimestamps(files, frameCounts, fps), results, reindex))
  {
    if workers == 0 {
      return Failure(ValueError(BatchSizeZero));
    }
    var batchSize := workers;
    var stamps := AllTimestamps(files, frameCounts, fps);
    ghost var all := ScoreWrites(uuids, stamps, results, reindex);
    ghost var target := Write(map[], all);
    var store: Store := map[];
    var i := 0;
    ghost var k: nat := 0;
    while i < |uuids|
      invariant 0 <= i <= |uuids|
      invariant i == |uuids| || (i == k * batchSize && k < |Batches(uuids, batchSize)|)
      invariant Write(store, all[2 * i..]) == target
      decreases |uuids| - i
    {
      var hi := Min(i + batchSize, |uuids|);
      BatchStart(uuids, batchSize, k);
      assert uuids[i..hi] == Batches(uuids, batchSize)[k];
      var batch := ApplyBatch(uuids, stamps, results, keys, reindex, i, hi, store);
      if batch.Failure? {
        return batch;
      }
      store := batch.value;
      if hi < |uuids| {
        MulStep(k + 1, batchSize);
        BatchesCover(uuids, batchSize, k + 1);
      }
      i := hi;
      k := k + 1;
    }
    assert all[2 * i..] == [];
    r := Success(store);
  }

  /** With distinct session uuids every session's padded scores and index
      are stored under its uuid, computed from its own result and
      timestamps. */
  lemma ScoreWritesStoreEverySession(uuids: seq<string>, stamps: seq<Vec>, results: seq<Mat>, reindex: ReindexFn)
    requires |stamps| == |uuids| && |results| == |uuids|
    requires Distinct(uuids)
    ensures WriteAll(map[], ScoreWrites(uuids, stamps, results, reindex)).Success?
    ensures forall i :: 0 <= i < |uuids| ==> SessionStored(WriteAll(map[], ScoreWrites(uuids, stamps, results, reindex)).value, uuids, stamps, results, reindex, i)
  {
    ScoreWritesFresh(uuids, stamps, results, reindex);
    var w := ScoreWrites(uuids, stamps, results, reindex);
    var store := WriteAll(map[], w).value;
    forall i | 0 <= i < |uuids|
      ensures SessionStored(store, uuids, stamps, results, reindex, i)
    {
      ScoreWritesAt(uuids, stamps, results, reindex, i);
      assert w[2 * i].0 in Names(w) && w[2 * i + 1].0 in Names(w);
    }
  }

  /** Session `i`'s padded scores and index, reindexed with its own
      timestamps, are stored under its uuid. */
  ghost predicate SessionStored(store: Store, uuids: seq<string>, stamps: seq<Vec>, results: seq<Mat>, reindex: ReindexFn, i: nat)
    requires |stamps| == |uuids| && |results| == |uuids|
    requires i < |uuids|
  {
    var out := reindex(results[i], stamps[i]);
    && ScoresName(uuids[i]) in store && store[ScoresName(uuids[i])] == Table(out.0)
    && IndexName(uuids[i]) in store && store[IndexName(uuids[i])] == Column(out.1)
  }
}

=== FILE: batching.dfy ===
/** The batch loops of `apply_pca_dask` and `get_changepoints_dask`:
    `range(0, n, batch_size)` with slices `xs[i:i+batch_size]`, the lookup
    `keys.index(future.key)` that recovers a finished future's position in
    its batch, and the output file, where `create_dataset` refuses a name
    that already exists. */
module Batching {
  import opened Outcomes

  function Min(a: int, b: int): int {
    if a < b then a else b
  }

  /** `[xs[i:i+size] for i in range(0, len(xs), size)]`, built by peeling
      off the first batch. */
  function Batches<T>(xs: seq<T>, size: nat): (bs: seq<seq<T>>)
    requires size > 0
    ensures |xs| == 0 <==> |bs| == 0
    ensures forall k :: 0 <= k < |bs| ==> 0 < |bs[k]| <= size
    ensures forall k :: 0 <= k < |bs| - 1 ==> |bs[k]| == size
    ensures Flatten(bs) == xs
    decreases |xs|
  {
    if |xs| == 0 then []
    else if |xs| <= size then [xs]
    else
      var rest := Batches(xs[size..], size);
      assert xs == xs[..size] + xs[size..];
      [xs[..size]] + rest
  }

  function Flatten<T>(bs: seq<seq<T>>): seq<T> {
    if |bs| == 0 then [] else bs[0] + Flatten(bs[1..])
  }

  /** Batch `k` is the slice that starts at `k * size`. */
  lemma {:induction false} BatchStart<T>(xs: seq<T>, size: nat, k: nat)
    requires size > 0 && k < |Batches(xs, size)|
    ensures k * size < |xs|
    ensures Batches(xs, size)[k] == xs[k * size .. Min(k * size + size, |xs|)]
    decreases k
  {
    if k == 0 {
      BatchesHead(xs, size);
    } else {
      BatchesTail(xs, size, k);
      BatchStart(xs[size..], size, k - 1);
      ShiftedSlice(xs, size, k);
    }
  }

  /** Every start `k * size` inside the list opens a batch. */
  lemma {:induction false} BatchesCover<T>(xs: seq<T>, size: nat, k: nat)
    requires size > 0 && k * size < |xs|
    ensures k < |Batches(xs, size)|
    decreases k
  {
    if k > 0 {
      MulStep(k, size);
      BatchesCover(xs[size..], size, k - 1);
    }
  }

  /** Slice `k - 1` of the remainder after the first batch is slice `k` of
      the whole list. */
  lemma ShiftedSlice<T>(xs: seq<T>, size: nat, k: nat)
    requires 0 < k && size <= |xs| && (k - 1) * size < |xs| - size
    ensures k * size < |xs|
    ensures xs[size..][(k - 1) * size .. Min((k - 1) * size + size, |xs| - size)]
         == xs[k * size .. Min(k * size + size, |xs|)]
  {
    var a := (k - 1) * size;
    MulStep(k, size);
    SliceShift(xs, size, a, Min(a + size, |xs| - size));
  }

  /** The first batch is the first `size` elements, or all of them. */
  lemma BatchesHead<T>(xs: seq<T>, size: nat)
    requires size > 0 && |Batches(xs, size)| > 0
    ensures Batches(xs, size)[0] == xs[0 .. Min(size, |xs|)]
  {
    if |xs| <= size {
      assert xs[0..|xs|] == xs;
    }
  }

  /** Past the first batch, the batches are those of the remainder. */
  lemma BatchesTail<T>(xs: seq<T>, size: nat, k: nat)
    requires size > 0 && 0 < k < |Batches(xs, size)|
    ensures |xs| > size && k - 1 < |Batches(xs[size..], size)|
    ensures Batches(xs, size)[k] == Batches(xs[size..], size)[k - 1]
  {
  }

  lemma SliceShift<T>(xs: seq<T>, size: nat, a: nat, b: nat)
    requires size <= |xs| && a <= b <= |xs| - size
    ensures xs[size..][a..b] == xs[a + size..b + size]
  {
  }

  lemma MulStep(k: nat, size: nat)
    requires k > 0
    ensures (k - 1) * size + size == k * size
  {
  }

  /** Position `j` of batch `k` is element `k * size + j`. */
  lemma BatchElement<T>(xs: seq<T>, size: nat, k: nat, j: nat)
    requires size > 0 && k < |Batches(xs, size)| && j < |Batches(xs, size)[k]|
    ensures k * size + j < |xs| && Batches(xs, size)[k][j] == xs[k * size + j]
  {
    BatchStart(xs, size, k);
    SliceElement(xs, Batches(xs, size)[k], k * size, Min(k * size + size, |xs|), j);
  }

  lemma SliceElement<T>(xs: seq<T>, b: seq<T>, start: nat, stop: nat, j: nat)
    requires start <= stop <= |xs| && b == xs[start..stop] && j < |b|
    ensures start + j < |xs| && b[j] == xs[start + j]
  {
  }

  /** Parallel lists batched with one size stay aligned: position `j` of
      batch `k` is element `k * size + j` of each list. */
  lemma BatchesAligned<A, B>(xs: seq<A>, ys: seq<B>, size: nat, k: nat, j: nat)
    requires size > 0 && |xs| == |ys|
    requires k < |Batches(xs, size)| && j < |Batches(xs, size)[k]|
    ensures |Batches(ys, size)| == |Batches(xs, size)|
    ensures |Batches(ys, size)[k]| == |Batches(xs, size)[k]|
    ensures k * size + j < |xs|
    ensures Batches(xs, size)[k][j] == xs[k * size + j] && Batches(ys, size)[k][j] == ys[k * size + j]
  {
    BatchCount(xs, size);
    BatchCount(ys, size);
    BatchLength(xs, size, k);
    BatchLength(ys, size, k);
    BatchElement(xs, size, k, j);
    BatchElement(ys, size, k, j);
  }

  /** The length of batch `k` depends only on the list's length. */
  lemma BatchLength<T>(xs: seq<T>, size: nat, k: nat)
    requires size > 0 && k < |Batches(xs, size)|
    ensures k * size < |xs| && |Batches(xs, size)[k]| == Min(k * size + size, |xs|) - k * size
  {
    BatchStart(xs, size, k);
  }

  /** The number of batches depends only on the length. */
  lemma {:induction false} BatchCount<T>(xs: seq<T>, size: nat)
    requires size > 0
    ensures |Batches(xs, size)| == BatchTotal(|xs|, size)
    decreases |xs|
  {
    if |xs| > size {
      BatchCount(xs[size..], size);
    }
  }

  /** `len(range(0, n, size))` */
  function BatchTotal(n: nat, size: nat): (c: nat)
    requires size > 0
    ensures n == 0 <==> c == 0
    ensures c > 0 ==> (c - 1) * size < n <= c * size
    decreases n
  {
    if n == 0 then 0
    else if n <= size then 1
    else
      var c := 1 + BatchTotal(n - size, size);
      assert (c - 1) * size == (c - 2) * size + size;
      c
  }

  predicate Distinct<T(==)>(xs: seq<T>) {
    forall i, j :: 0 <= i < j < |xs| ==> xs[i] != xs[j]
  }

  /** `keys.index(key)`, raising `ValueError` when the key is absent. */
  function IndexOf<T(==)>(keys: seq<T>, key: T): (r: Result<nat>)
    ensures r.Success? <==> key in keys
    ensures r.Success? ==> r.value < |keys| && keys[r.value] == key && key !in keys[..r.value]
    ensures r.Failure? ==> r.error.ValueError?
  {
    if |keys| == 0 then Failure(ValueError("key is not in list"))
    else if keys[0] == key then Success(0)
    else
      var r :- IndexOf(keys[1..], key);
      assert keys[..r + 1] == [keys[0]] + keys[1..][..r];
      Success(r + 1)
  }

  /** With distinct keys, the lookup of a future's key recovers the
      position it was submitted at. */
  lemma IndexOfDistinct<T>(keys: seq<T>, j: nat)
    requires Distinct(keys) && j < |keys|
    ensures IndexOf(keys, keys[j]) == Success(j)
  {
    var r := IndexOf(keys, keys[j]);
    assert r.Success?;
    assert r.value >= j by {
      assert keys[r.value] == keys[j];
    }
  }

  /** The dataset names of a list of writes. */
  function Names<D>(entries: seq<(string, D)>): set<string> {
    set i | 0 <= i < |entries| :: entries[i].0
  }

  /** No write reuses a name that exists or that an earlier write used. */
  predicate Fresh<D>(store: map<string, D>, entries: seq<(string, D)>) {
    && (forall i :: 0 <= i < |entries| ==> entries[i].0 !in store)
    && (forall i, j :: 0 <= i < j < |entries| ==> entries[i].0 != entries[j].0)
  }

  /** Successive `create_dataset(name, data)` calls; an existing name makes
      h5py raise and stops the run. */
  function WriteAll<D>(store: map<string, D>, entries: seq<(string, D)>): (r: Result<map<string, D>>)
    ensures r.Success? <==> Fresh(store, entries)
    ensures r.Failure? ==> r.error.ValueError?
    ensures r.Success? ==> r.value.Keys == store.Keys + Names(entries)
    ensures r.Success? ==> forall k :: k in store ==> r.value[k] == store[k]
    ensures r.Success? ==> forall i :: 0 <= i < |entries| ==> r.value[entries[i].0] == entries[i].1
  {
    WriteFacts(store, entries);
    Write(store, entries)
  }

  /** The write loop itself, one `create_dataset` after the other. */
  function Write<D>(store: map<string, D>, entries: seq<(string, D)>): Result<map<string, D>>
    decreases |entries|
  {
    if |entries| == 0 then Success(store)
    else if entries[0].0 in store then Failure(ValueError("name already exists"))
    else Write(store[entries[0].0 := entries[0].1], entries[1..])
  }

  lemma {:induction false} WriteFacts<D>(store: map<string, D>, entries: seq<(string, D)>)
    ensures Write(store, entries).Success? <==> Fresh(store, entries)
    ensures Write(store, entries).Failure? ==> Write(store, entries).error.ValueError?
    ensures var r := Write(store, entries);
      r.Success? ==> r.value.Keys == store.Keys + Names(entries)
    ensures var r := Write(store, entries);
      r.Success? ==> forall k :: k in store ==> r.value[k] == store[k]
    ensures var r := Write(store, entries);
      r.Success? ==> forall i :: 0 <= i < |entries| ==> r.value[entries[i].0] == entries[i].1
    decreases |entries|
  {
    if |entries| > 0 && entries[0].0 !in store {
      WriteFacts(store[entries[0].0 := entries[0].1], entries[1..]);
      assert Names(entries) == {entries[0].0} + Names(entries[1..]) by {
        forall n | n in Names(entries)
          ensures n in {entries[0].0} + Names(entries[1..])
        {
          var i :| 0 <= i < |entries| && entries[i].0 == n;
          if i > 0 {
            assert entries[1..][i - 1].0 == n;
          }
        }
      }
    }
  }
}

=== FILE: changepoint_driver.dfy ===
/** `get_changepoints_dask`: sessions are read and checked one after the
    other, their frames (in missing-data mode merged with the
    reconstruction from the stored PC scores) are handed to the
    changepoint detector, and the results are written per uuid. The
    detector (`get_rps` followed by `get_changepoints`) is not part of this
    model and enters as a parameter. */
module ChangepointDriver {
  import opened Outcomes
  import opened PyValues
  import opened Matrix
  import opened Masking
  import opened Timestamps
  import opened Scoring
  import opened Batching
  import ApplyDriver

  const NeedScoresMessage := "Need to compute PC scores to impute missing data"

  /** One session: the uuid from its yaml (`None` when the key is absent),
      its h5 file, its frames with one row per frame, and its raw mask
      dataset of the same shape. */
  datatype CpSession = CpSession(uuid: Option<string>, file: H5File, frames: Mat, rawMask: Mat)

  /** A session queued for changepoint detection. */
  datatype Planned = Planned(uuid: string, frames: Mat, timestamps: Vec)

  predicate WellShaped(s: CpSession, d: nat) {
    IsMatrix(s.frames, |s.frames|, d) && SameShape(s.rawMask, s.frames)
  }

  /** Number of index entries that are not NaN. */
  function RealRowCount(idx: seq<Option<real>>): (n: nat)
    ensures n <= |idx|
  {
    if |idx| == 0 then 0 else (if idx[0].Some? then 1 else 0) + RealRowCount(idx[1..])
  }

  /** `rows[~np.isnan(idx), :]`. */
  function RealRows(rows: Mat, idx: seq<Option<real>>): (r: Mat)
    requires |rows| == |idx|
    ensures |r| == RealRowCount(idx)
  {
    if |idx| == 0 then []
    else (if idx[0].Some? then [rows[0]] else []) + RealRows(rows[1..], idx[1..])
  }

  /** Row `i` of the padded table is kept exactly when its index entry is a
      number, and it lands after the real rows before it. */
  lemma {:induction false} RealRowsAt(rows: Mat, idx: seq<Option<real>>, i: nat)
    requires |rows| == |idx| && i < |idx| && idx[i].Some?
    ensures RealRowCount(idx[..i]) < |RealRows(rows, idx)|
    ensures RealRows(rows, idx)[RealRowCount(idx[..i])] == rows[i]
    decreases i
  {
    if i == 0 {
      assert idx[..0] == [];
    } else {
      RealRowsAt(rows[1..], idx[1..], i - 1);
      assert idx[1..][..i - 1] == idx[..i][1..];
      assert idx[..i][0] == idx[0];
    }
  }

  /** Every row with a numeric index entry is kept, after the kept rows
      before it. */
  lemma RealRowsInOrder(rows: Mat, idx: seq<Option<real>>)
    requires |rows| == |idx|
    ensures forall i :: 0 <= i < |idx| && idx[i].Some? ==>
      RealRowCount(idx[..i]) < |RealRows(rows, idx)| && RealRows(rows, idx)[RealRowCount(idx[..i])] == rows[i]
  {
    forall i | 0 <= i < |idx| && idx[i].Some?
      ensures RealRowCount(idx[..i]) < |RealRows(rows, idx)| && RealRows(rows, idx)[RealRowCount(idx[..i])] == rows[i]
    {
      RealRowsAt(rows, idx, i);
    }
  }

  /** With no NaN in the index, every row is kept. */
  lemma {:induction false} RealRowsAllReal(rows: Mat, idx: seq<Option<real>>)
    requires |rows| == |idx|
    requires forall i :: 0 <= i < |idx| ==> idx[i].Some?
    ensures RealRows(rows, idx) == rows
    decreases |idx|
  {
    if |idx| > 0 {
      RealRowsAllReal(rows[1..], idx[1..]);
      assert [rows[0]] + rows[1..] == rows;
    }
  }

  /** The scores of one session read back from the scores file, with the
      padded rows dropped. */
  function StoredScores(scoresFile: ApplyDriver.Store, uuid: string): (r: Result<Mat>)
    ensures ApplyDriver.ScoresName(uuid) !in scoresFile ==> r == Failure(KeyError(ApplyDriver.ScoresName(uuid)))
    ensures ApplyDriver.ScoresName(uuid) in scoresFile && ApplyDriver.IndexName(uuid) !in scoresFile ==>
      r == Failure(KeyError(ApplyDriver.IndexName(uuid)))
    ensures r.Success? ==>
      && scoresFile[ApplyDriver.ScoresName(uuid)].Table?
      && scoresFile[ApplyDriver.IndexName(uuid)].Column?
      && var idx := scoresFile[ApplyDriver.IndexName(uuid)].values;
         |r.value| == RealRowCount(idx) && |scoresFile[ApplyDriver.ScoresName(uuid)].rows| == |idx|
    ensures r.Success? ==>
      var rows := scoresFile[ApplyDriver.ScoresName(uuid)].rows;
      var idx := scoresFile[ApplyDriver.IndexName(uuid)].values;
      forall i :: 0 <= i < |idx| && idx[i].Some? ==> RealRowCount(idx[..i]) < |r.value| && r.value[RealRowCount(idx[..i])] == rows[i]
  {
    var sname := ApplyDriver.ScoresName(uuid);
    var iname := ApplyDriver.IndexName(uuid);
    if sname !in scoresFile then Failure(KeyError(sname))
    else if iname !in scoresFile then Failure(KeyError(iname))
    else match (scoresFile[sname], scoresFile[iname])
      case (Table(rows), Column(idx)) =>
        if |rows| != |idx| then Failure(IndexError("boolean index did not match indexed array"))
        else
          RealRowsInOrder(rows, idx);
          Success(RealRows(rows, idx))
      case _ => Failure(TypeError("dataset does not hold a score table and its index"))
  }

  /** Both mask thresholds are given as numbers. */
  predicate NumericThresholds(maskParams: Dict) {
    && "mask_threshold" in maskParams && IsNumber(maskParams["mask_threshold"])
    && "mask_height_threshold" in maskParams && IsNumber(maskParams["mask_height_threshold"])
  }

  /** The missing-data mask of a session: a pixel is invalid when its mask
      value is below `mask_threshold` and its depth above
      `mask_height_threshold`. */
  function SessionMask(s: CpSession, maskParams: Dict): BoolMat
    requires SameShape(s.rawMask, s.frames) && NumericThresholds(maskParams)
  {
    BuildMask(s.rawMask, s.frames, NumberOf(maskParams["mask_threshold"]), NumberOf(maskParams["mask_height_threshold"]))
  }

  /** The per-session body of the setup loop (lines 479-521): `None` when
      the stored scores do not cover the session's frames, which skips it
      with a warning. In missing-data mode the queued frames are the
      session's frames with invalid pixels zeroed and then replaced by the
      raw reconstruction from the stored scores. */
  function PlanSession(s: CpSession, d: nat, missingData: bool, maskParams: Dict,
                       scoresFile: Option<ApplyDriver.Store>, comps: Mat, fps: int): (r: Result<Option<Planned>>)
    requires WellShaped(s, d) && IsMatrix(comps, |comps|, d) && fps != 0
    ensures s.uuid.None? ==> r == Failure(KeyError("uuid"))
    ensures s.uuid.Some? && missingData && scoresFile.None? ==> r == Failure(RuntimeError(NeedScoresMessage))
    ensures s.uuid.Some? && !missingData ==>
      r == Success(Some(Planned(s.uuid.value, s.frames, GetTimestamps(s.file, |s.frames|, fps))))
    ensures r.Success? && r.value.None? ==> missingData
    ensures r.Success? && r.value.Some? ==>
      var p := r.value.value;
      && s.uuid == Some(p.uuid)
      && p.timestamps == GetTimestamps(s.file, |s.frames|, fps)
      && IsMatrix(p.frames, |s.frames|, d)
    ensures missingData && r.Success? && r.value.Some? ==>
      && "mask_threshold" in maskParams && IsNumber(maskParams["mask_threshold"])
      && "mask_height_threshold" in maskParams && IsNumber(maskParams["mask_height_threshold"])
    ensures missingData && r.Success? && r.value.Some? ==>
      var p := r.value.value;
      var thr := NumberOf(maskParams["mask_threshold"]);
      var height := NumberOf(maskParams["mask_height_threshold"]);
      forall i, j :: 0 <= i < |s.frames| && 0 <= j < d && !(s.rawMask[i][j] < thr && s.frames[i][j] > height) ==>
        p.frames[i][j] == s.frames[i][j]
    ensures missingData && r.Success? ==>
      && s.uuid.Some? && scoresFile.Some? && NumericThresholds(maskParams)
      && StoredScores(scoresFile.value, s.uuid.value).Success?
    ensures s.uuid.Some? && missingData && scoresFile.Some? && NumericThresholds(maskParams)
            && StoredScores(scoresFile.value, s.uuid.value).Success? ==>
      var sc := StoredScores(scoresFile.value, s.uuid.value).value;
      && (r == Success(None) <==> |sc| != |s.frames|)
      && (r.Success? <==> |sc| != |s.frames| || forall i :: 0 <= i < |sc| ==> |sc[i]| == |comps|)
  {
    var uuid :- if s.uuid.None? then Failure(KeyError("uuid")) else Success(s.uuid.value);
    var ts := GetTimestamps(s.file, |s.frames|, fps);
    if !missingData then Success(Some(Planned(uuid, s.frames, ts)))
    else if scoresFile.None? then Failure(RuntimeError(NeedScoresMessage))
    else PlanMasked(s, uuid, ts, d, maskParams, scoresFile.value, comps)
  }

  /** The missing-data branch of the setup (lines 494-517) for a session
      with a uuid, given the scores file. */
  function PlanMasked(s: CpSession, uuid: string, ts: Vec, d: nat, maskParams: Dict,
                      store: ApplyDriver.Store, comps: Mat): (r: Result<Option<Planned>>)
    requires WellShaped(s, d) && IsMatrix(comps, |comps|, d)
    ensures "mask_threshold" !in maskParams ==> r == Failure(KeyError("mask_threshold"))
    ensures "mask_threshold" in maskParams && "mask_height_threshold" !in maskParams ==>
      r == Failure(KeyError("mask_height_threshold"))
    ensures "mask_threshold" in maskParams && "mask_height_threshold" in maskParams && !NumericThresholds(maskParams) ==>
      r.Failure? && r.error.TypeError?
    ensures NumericThresholds(maskParams) && StoredScores(store, uuid).Failure? ==>
      r == Failure(StoredScores(store, uuid).error)
    ensures NumericThresholds(maskParams) && StoredScores(store, uuid).Success? ==>
      var sc := StoredScores(store, uuid).value;
      && (r == Success(None) <==> |sc| != |s.frames|)
      && (r.Success? <==> |sc| != |s.frames| || forall i :: 0 <= i < |sc| ==> |sc[i]| == |comps|)
      && (r.Failure? ==> r.error == ValueError("shapes not aligned"))
  {
    var thr :- Index(maskParams, "mask_threshold");
    var height :- Index(maskParams, "mask_height_threshold");
    if !IsNumber(thr) || !IsNumber(height) then Failure(TypeError("'<' not supported between these operands"))
    else
      var mask := BuildMask(s.rawMask, s.frames, NumberOf(thr), NumberOf(height));
      var zeroed := ZeroMasked(s.frames, mask);
      var scores :- StoredScores(store, uuid);
      if |scores| != |s.frames| then Success(None)
      else if exists i :: 0 <= i < |scores| && |scores[i]| != |comps| then Failure(ValueError("shapes not aligned"))
      else Success(Some(Planned(uuid, ChangepointFrames(zeroed, mask, scores, comps, d), ts)))
  }

  /** A missing-data session whose stored scores cover its frames, each
      row with one entry per component, is queued. */
  lemma CoveredSessionQueued(s: CpSession, d: nat, maskParams: Dict, store: ApplyDriver.Store, comps: Mat, fps: int)
    requires WellShaped(s, d) && IsMatrix(comps, |comps|, d) && fps != 0
    requires NumericThresholds(maskParams) && ScoresCoverFrames(s, store)
    requires var sc := StoredScores(store, s.uuid.value).value;
      forall i :: 0 <= i < |sc| ==> |sc[i]| == |comps|
    ensures PlanSession(s, d, true, maskParams, Some(store), comps, fps).Success?
    ensures PlanSession(s, d, true, maskParams, Some(store), comps, fps).value.Some?
  {
  }

  /** In missing-data mode a queued session's frames are its frames with
      the invalid pixels zeroed and then replaced by the raw reconstruction
      `scores.dot(components)` from its stored scores. */
  lemma PlanSessionFrames(s: CpSession, d: nat, maskParams: Dict, store: ApplyDriver.Store, comps: Mat, fps: int)
    requires WellShaped(s, d) && IsMatrix(comps, |comps|, d) && fps != 0
    requires PlanSession(s, d, true, maskParams, Some(store), comps, fps).Success?
    requires PlanSession(s, d, true, maskParams, Some(store), comps, fps).value.Some?
    ensures s.uuid.Some? && NumericThresholds(maskParams) && StoredScores(store, s.uuid.value).Success?
    ensures var sc := StoredScores(store, s.uuid.value).value;
      && IsMatrix(sc, |s.frames|, |comps|)
      && var mask := SessionMask(s, maskParams);
         PlanSession(s, d, true, maskParams, Some(store), comps, fps).value.value.frames ==
           ChangepointFrames(ZeroMasked(s.frames, mask), mask, sc, comps, d)
  {
  }

  /** The whole setup loop: sessions in order, the first failure ending it. */
  function PlanChangepoints(sessions: seq<CpSession>, d: nat, missingData: bool, maskParams: Dict,
                            scoresFile: Option<ApplyDriver.Store>, comps: Mat, fps: int): (r: Result<seq<Planned>>)
    requires forall i :: 0 <= i < |sessions| ==> WellShaped(sessions[i], d)
    requires IsMatrix(comps, |comps|, d) && fps != 0
    ensures r.Success? ==> |r.value| <= |sessions|
    ensures r.Success? && !missingData ==> |r.value| == |sessions|
    decreases |sessions|
  {
    if |sessions| == 0 then Success([])
    else
      var first :- PlanSession(sessions[0], d, missingData, maskParams, scoresFile, comps, fps);
      var rest :- PlanChangepoints(sessions[1..], d, missingData, maskParams, scoresFile, comps, fps);
      Success((if first.Some? then [first.value] else []) + rest)
  }

  /** Without missing data every session is planned, in order, with its own
      frames and timestamps, unless one lacks a uuid. */
  lemma {:induction false} PlanWithoutMissingData(sessions: seq<CpSession>, d: nat, maskParams: Dict,
                                                  scoresFile: Option<ApplyDriver.Store>, comps: Mat, fps: int)
    requires forall i :: 0 <= i < |sessions| ==> WellShaped(sessions[i], d)
    requires IsMatrix(comps, |comps|, d) && fps != 0
    ensures var r := PlanChangepoints(sessions, d, false, maskParams, scoresFile, comps, fps);
      && (r.Success? <==> forall i :: 0 <= i < |sessions| ==> sessions[i].uuid.Some?)
      && (r.Success? ==> forall i :: 0 <= i < |sessions| ==>
            r.value[i] == Planned(sessions[i].uuid.value, sessions[i].frames, GetTimestamps(sessions[i].file, |sessions[i].frames|, fps)))
    decreases |sessions|
  {
    if |sessions| > 0 {
      PlanWithoutMissingData(sessions[1..], d, maskParams, scoresFile, comps, fps);
      assert forall i :: 1 <= i < |sessions| ==> sessions[1..][i - 1] == sessions[i];
    }
  }

  /** A session whose stored score rows, with the NaN-indexed padding
      dropped, are as many as its frames. */
  predicate ScoresCoverFrames(s: CpSession, store: ApplyDriver.Store) {
    && s.uuid.Some?
    && StoredScores(store, s.uuid.value).Success?
    && |StoredScores(store, s.uuid.value).value| == |s.frames|
  }

  /** The sessions, in order, whose stored scores cover their frames. */
  function Covered(sessions: seq<CpSession>, store: ApplyDriver.Store): (r: seq<CpSession>)
    ensures |r| <= |sessions|
    ensures forall i :: 0 <= i < |r| ==> ScoresCoverFrames(r[i], store)
    decreases |sessions|
  {
    if |sessions| == 0 then []
    else (if ScoresCoverFrames(sessions[0], store) then [sessions[0]] else []) + Covered(sessions[1..], store)
  }

  /** The run succeeds exactly when every session's setup does. */
  lemma {:induction false} PlanSucceeds(sessions: seq<CpSession>, d: nat, missingData: bool, maskParams: Dict,
                                        scoresFile: Option<ApplyDriver.Store>, comps: Mat, fps: int)
    requires forall i :: 0 <= i < |sessions| ==> WellShaped(sessions[i], d)
    requires IsMatrix(comps, |comps|, d) && fps != 0
    ensures PlanChangepoints(sessions, d, missingData, maskParams, scoresFile, comps, fps).Success? <==>
      forall i :: 0 <= i < |sessions| ==> PlanSession(sessions[i], d, missingData, maskParams, scoresFile, comps, fps).Success?
    decreases |sessions|
  {
    if |sessions| > 0 {
      PlanSucceeds(sessions[1..], d, missingData, maskParams, scoresFile, comps, fps);
      assert forall i :: 1 <= i < |sessions| ==> sessions[1..][i - 1] == sessions[i];
    }
  }

  /** A successful missing-data setup queues a session exactly when its
      stored scores cover its frames. */
  lemma PlanSessionKeepsCovered(s: CpSession, d: nat, maskParams: Dict, store: ApplyDriver.Store, comps: Mat, fps: int)
    requires WellShaped(s, d) && IsMatrix(comps, |comps|, d) && fps != 0
    requires PlanSession(s, d, true, maskParams, Some(store), comps, fps).Success?
    ensures PlanSession(s, d, true, maskParams, Some(store), comps, fps).value.Some? <==> ScoresCoverFrames(s, store)
  {
  }

  /** The missing-data setup of session `s` queues the plan `p`. */
  predicate QueuedAs(s: CpSession, p: Planned, d: nat, maskParams: Dict, store: ApplyDriver.Store, comps: Mat, fps: int) {
    && WellShaped(s, d) && IsMatrix(comps, |comps|, d) && fps != 0
    && PlanSession(s, d, true, maskParams, Some(store), comps, fps) == Success(Some(p))
  }

  /** One step of a successful missing-data run: the rest of the run
      succeeds, and the first session is queued in front of it exactly when
      its stored scores cover its frames. */
  lemma PlanHead(sessions: seq<CpSession>, d: nat, maskParams: Dict, store: ApplyDriver.Store, comps: Mat, fps: int)
    requires forall i :: 0 <= i < |sessions| ==> WellShaped(sessions[i], d)
    requires IsMatrix(comps, |comps|, d) && fps != 0 && |sessions| > 0
    requires PlanChangepoints(sessions, d, true, maskParams, Some(store), comps, fps).Success?
    ensures var r := PlanChangepoints(sessions, d, true, maskParams, Some(store), comps, fps).value;
      var tail := PlanChangepoints(sessions[1..], d, true, maskParams, Some(store), comps, fps);
      && tail.Success?
      && (ScoresCoverFrames(sessions[0], store) ==>
            |r| > 0 && QueuedAs(sessions[0], r[0], d, maskParams, store, comps, fps) && r[1..] == tail.value)
      && (!ScoresCoverFrames(sessions[0], store) ==> r == tail.value)
  {
    PlanSessionKeepsCovered(sessions[0], d, maskParams, store, comps, fps);
  }

  /** Plans matching their sessions pairwise after the first still match
      once the matching first pair is put in front. */
  lemma QueuedInFront(cov: seq<CpSession>, plans: seq<Planned>, d: nat, maskParams: Dict,
                      store: ApplyDriver.Store, comps: Mat, fps: int)
    requires |cov| == |plans| > 0
    requires QueuedAs(cov[0], plans[0], d, maskParams, store, comps, fps)
    requires forall i :: 0 <= i < |plans| - 1 ==> QueuedAs(cov[1..][i], plans[1..][i], d, maskParams, store, comps, fps)
    ensures forall i :: 0 <= i < |plans| ==> QueuedAs(cov[i], plans[i], d, maskParams, store, comps, fps)
  {
    forall i | 1 <= i < |plans|
      ensures QueuedAs(cov[i], plans[i], d, maskParams, store, comps, fps)
    {
      assert cov[1..][i - 1] == cov[i] && plans[1..][i - 1] == plans[i];
    }
  }

  /** In missing-data mode a successful run plans exactly the sessions whose
      stored scores cover their frames, in order, each as its own setup
      queued it. */
  lemma {:induction false} PlanWithMissingData(sessions: seq<CpSession>, d: nat, maskParams: Dict,
                                               store: ApplyDriver.Store, comps: Mat, fps: int)
    requires forall i :: 0 <= i < |sessions| ==> WellShaped(sessions[i], d)
    requires IsMatrix(comps, |comps|, d) && fps != 0
    ensures var r := PlanChangepoints(sessions, d, true, maskParams, Some(store), comps, fps);
      r.Success? ==>
        && |r.value| == |Covered(sessions, store)|
        && forall i :: 0 <= i < |r.value| ==>
             QueuedAs(Covered(sessions, store)[i], r.value[i], d, maskParams, store, comps, fps)
    decreases |sessions|
  {
    var r := PlanChangepoints(sessions, d, true, maskParams, Some(store), comps, fps);
    if |sessions| > 0 && r.Success? {
      var rest := sessions[1..];
      PlanHead(sessions, d, maskParams, store, comps, fps);
      PlanWithMissingData(rest, d, maskParams, store, comps, fps);
      var tail := PlanChangepoints(rest, d, true, maskParams, Some(store), comps, fps).value;
      var cov := Covered(sessions, store);
      if ScoresCoverFrames(sessions[0], store) {
        assert cov == [sessions[0]] + Covered(rest, store);
        QueuedInFront(cov, r.value, d, maskParams, store, comps, fps);
      } else {
        assert cov == Covered(rest, store);
      }
    }
  }

  /** In missing-data mode without a scores file the first session with a
      uuid stops the run, so nothing is computed. */
  lemma MissingScoresStopsRun(sessions: seq<CpSession>, d: nat, maskParams: Dict, comps: Mat, fps: int)
    requires forall i :: 0 <= i < |sessions| ==> WellShaped(sessions[i], d)
    requires IsMatrix(comps, |comps|, d) && fps != 0
    requires |sessions| > 0 && sessions[0].uuid.Some?
    ensures PlanChangepoints(sessions, d, true, maskParams, None, comps, fps) == Failure(RuntimeError(NeedScoresMessage))
  {
  }

  /** `get_changepoints(get_rps(frames), timestamps)`: the detector's
      changepoints, counted in frames, and its score trace, each possibly
      `None`. */
  type ChangepointFn = (Mat, Vec) -> (Option<Vec>, Option<Vec>)

  type CpStore = map<string, Vec>

  const FpsName := "metadata/fps"

  function CpsScoreName(uuid: string): string {
    "cps_score/" + uuid
  }

  function CpsName(uuid: string): string {
    "cps/" + uuid
  }

  /** The detector's changepoints divided by the frame rate: their times
      in seconds. */
  function PerFrameRate(v: Vec, fps: int): (r: Vec)
    requires fps != 0
    ensures |r| == |v| && forall i :: 0 <= i < |v| ==> r[i] * (fps as real) == v[i]
  {
    seq(|v|, i requires 0 <= i < |v| => v[i] / (fps as real))
  }

  /** Both results present: the score trace, then the times in seconds. */
  predicate Detected(p: Planned, cp: ChangepointFn) {
    cp(p.frames, p.timestamps).0.Some? && cp(p.frames, p.timestamps).1.Some?
  }

  function SessionCpWrites(p: Planned, cp: ChangepointFn, fps: int): (w: seq<(string, Vec)>)
    requires fps != 0
    ensures Detected(p, cp) ==> |w| == 2 && w[0].0 == CpsScoreName(p.uuid) && w[1].0 == CpsName(p.uuid)
    ensures !Detected(p, cp) ==> w == []
  {
    var res := cp(p.frames, p.timestamps);
    if res.0.Some? && res.1.Some? then
      [(CpsScoreName(p.uuid), res.1.value), (CpsName(p.uuid), PerFrameRate(res.0.value, fps))]
    else []
  }

  function CpWrites(plans: seq<Planned>, cp: ChangepointFn, fps: int): (w: seq<(string, Vec)>)
    requires fps != 0
    decreases |plans|
  {
    if |plans| == 0 then [] else SessionCpWrites(plans[0], cp, fps) + CpWrites(plans[1..], cp, fps)
  }

  function InitialStore(fps: int): CpStore {
    map[FpsName := [fps as real]]
  }

  lemma CpWritesSplit(plans: seq<Planned>, cp: ChangepointFn, fps: int, i: nat)
    requires fps != 0 && i < |plans|
    ensures CpWrites(plans[i..], cp, fps) == SessionCpWrites(plans[i], cp, fps) + CpWrites(plans[i + 1..], cp, fps)
  {
    assert plans[i..][1..] == plans[i + 1..];
  }

  /** `WriteAll` over a write list that starts with `head`. */
  lemma {:induction false} WriteAllPrefix(store: CpStore, head: seq<(string, Vec)>, tail: seq<(string, Vec)>)
    ensures WriteAll(store, head + tail) ==
      match WriteAll(store, head)
      case Success(s) => WriteAll(s, tail)
      case Failure(e) => Failure(e)
    decreases |head|
  {
    if |head| > 0 {
      assert (head + tail)[0] == head[0] && (head + tail)[1..] == head[1..] + tail;
      if head[0].0 !in store {
        WriteAllPrefix(store[head[0].0 := head[0].1], head[1..], tail);
      }
    } else {
      assert head + tail == tail;
    }
  }

  /** The write loop of lines 526-547, one session per batch: the only key
      of the batch is found at position 0. */
  method ComputeChangepoints(plans: seq<Planned>, cp: ChangepointFn, fps: int) returns (r: Result<CpStore>)
    requires fps != 0
    ensures r == WriteAll(InitialStore(fps), CpWrites(plans, cp, fps))
  {
    var batchSize := 1;
    var store := InitialStore(fps);
    ghost var target := WriteAll(store, CpWrites(plans, cp, fps));
    var i := 0;
    while i < |plans|
      invariant 0 <= i <= |plans|
      invariant WriteAll(store, CpWrites(plans[i..], cp, fps)) == target
    {
      var hi := Min(i + batchSize, |plans|);
      var futuresBatch := plans[i..hi];
      var keys := seq(|futuresBatch|, k requires 0 <= k < |futuresBatch| => i + k);
      var fileIdx := IndexOf(keys, keys[0]).value;
      assert fileIdx == 0;
      var p := futuresBatch[fileIdx];
      var w := SessionCpWrites(p, cp, fps);
      CpWritesSplit(plans, cp, fps, i);
      WriteAllPrefix(store, w, CpWrites(plans[i + 1..], cp, fps));
      var next := WriteAll(store, w);
      if next.Failure? {
        return next;
      }
      store := next.value;
      i := hi;
    }
    r := Success(store);
  }

  predicate DistinctUuids(plans: seq<Planned>) {
    forall i, j :: 0 <= i < j < |plans| ==> plans[i].uuid != plans[j].uuid
  }

  /** One of the two changepoint dataset names of session `uuid`. */
  predicate CpNameOf(name: string, uuid: string) {
    name == CpsScoreName(uuid) || name == CpsName(uuid)
  }

  lemma CpNamesDistinct(u: string, v: string)
    ensures CpsScoreName(u) != CpsName(v)
    ensures CpsScoreName(u) == CpsScoreName(v) ==> u == v
    ensures CpsName(u) == CpsName(v) ==> u == v
    ensures CpsScoreName(u) != FpsName && CpsName(u) != FpsName
  {
    assert CpsScoreName(u)[3] == '_' && CpsName(v)[3] == '/';
    assert CpsScoreName(u)[0] == 'c' && CpsName(u)[0] == 'c' && FpsName[0] == 'm';
    if CpsScoreName(u) == CpsScoreName(v) {
      assert u == CpsScoreName(u)[10..] == CpsScoreName(v)[10..] == v;
    }
    if CpsName(u) == CpsName(v) {
      assert u == CpsName(u)[4..] == CpsName(v)[4..] == v;
    }
  }

  /** Every written name is one of a detected session's two names. */
  lemma {:induction false} CpWritesNames(plans: seq<Planned>, cp: ChangepointFn, fps: int, k: nat)
    requires fps != 0 && k < |CpWrites(plans, cp, fps)|
    ensures exists i :: 0 <= i < |plans| && Detected(plans[i], cp) && CpNameOf(CpWrites(plans, cp, fps)[k].0, plans[i].uuid)
    decreases |plans|
  {
    var head := SessionCpWrites(plans[0], cp, fps);
    var rest := CpWrites(plans[1..], cp, fps);
    var w := CpWrites(plans, cp, fps);
    if k < |head| {
      assert w[k] == head[k];
      assert CpNameOf(w[k].0, plans[0].uuid);
    } else {
      assert w[k] == rest[k - |head|];
      CpWritesNames(plans[1..], cp, fps, k - |head|);
      var i :| 0 <= i < |plans[1..]| && Detected(plans[1..][i], cp) && CpNameOf(rest[k - |head|].0, plans[1..][i].uuid);
      assert plans[1..][i] == plans[i + 1];
    }
  }

  /** A detected session's two writes stand next to each other. */
  lemma {:induction false} CpWritesPosition(plans: seq<Planned>, cp: ChangepointFn, fps: int, i: nat)
    requires fps != 0 && i < |plans| && Detected(plans[i], cp)
    ensures exists k :: (0 <= k && k + 1 < |CpWrites(plans, cp, fps)|
      && CpWrites(plans, cp, fps)[k] == SessionCpWrites(plans[i], cp, fps)[0]
      && CpWrites(plans, cp, fps)[k + 1] == SessionCpWrites(plans[i], cp, fps)[1])
    decreases i
  {
    var head := SessionCpWrites(plans[0], cp, fps);
    var w := CpWrites(plans, cp, fps);
    if i == 0 {
      assert w[0] == head[0] && w[1] == head[1];
    } else {
      var rest := CpWrites(plans[1..], cp, fps);
      assert plans[1..][i - 1] == plans[i];
      CpWritesPosition(plans[1..], cp, fps, i - 1);
      var k :| 0 <= k && k + 1 < |rest| && rest[k] == SessionCpWrites(plans[i], cp, fps)[0] && rest[k + 1] == SessionCpWrites(plans[i], cp, fps)[1];
      assert w[|head| + k] == rest[k] && w[|head| + k + 1] == rest[k + 1];
    }
  }

  /** Distinct uuids: no changepoint write collides with another or with
      the frame-rate entry. */
  lemma {:induction false} CpWritesFresh(plans: seq<Planned>, cp: ChangepointFn, fps: int)
    requires fps != 0 && DistinctUuids(plans)
    ensures Fresh(InitialStore(fps), CpWrites(plans, cp, fps))
    decreases |plans|
  {
    var w := CpWrites(plans, cp, fps);
    forall k | 0 <= k < |w|
      ensures w[k].0 !in InitialStore(fps)
    {
      CpWritesNames(plans, cp, fps, k);
      var i :| 0 <= i < |plans| && Detected(plans[i], cp) && CpNameOf(w[k].0, plans[i].uuid);
      CpNamesDistinct(plans[i].uuid, plans[i].uuid);
    }
    if |plans| > 0 {
      var head := SessionCpWrites(plans[0], cp, fps);
      var rest := CpWrites(plans[1..], cp, fps);
      assert DistinctUuids(plans[1..]);
      CpWritesFresh(plans[1..], cp, fps);
      CpNamesDistinct(plans[0].uuid, plans[0].uuid);
      forall a, b | 0 <= a < b < |w|
        ensures w[a].0 != w[b].0
      {
        if b >= |head| {
          assert w[b] == rest[b - |head|];
          if a < |head| {
            CpWritesNames(plans[1..], cp, fps, b - |head|);
            var i :| 0 <= i < |plans[1..]| && Detected(plans[1..][i], cp) && CpNameOf(rest[b - |head|].0, plans[1..][i].uuid);
            assert plans[1..][i] == plans[i + 1];
            CpNamesDistinct(plans[0].uuid, plans[i + 1].uuid);
            CpNamesDistinct(plans[i + 1].uuid, plans[0].uuid);
          } else {
            assert w[a] == rest[a - |head|];
          }
        }
      }
    }
  }

  /** With distinct uuids the run completes; the file holds the frame rate,
      and for each session its score trace and its changepoint times in
      seconds exactly when both detector results are present. */
  lemma CpWritesStored(plans: seq<Planned>, cp: ChangepointFn, fps: int)
    requires fps != 0 && DistinctUuids(plans)
    ensures WriteAll(InitialStore(fps), CpWrites(plans, cp, fps)).Success?
    ensures var store := WriteAll(InitialStore(fps), CpWrites(plans, cp, fps)).value;
      && FpsName in store && store[FpsName] == [fps as real]
      && forall i :: 0 <= i < |plans| ==> SessionCpStored(store, plans[i], cp, fps)
  {
    CpWritesFresh(plans, cp, fps);
    var w := CpWrites(plans, cp, fps);
    var store := WriteAll(InitialStore(fps), w).value;
    forall i | 0 <= i < |plans|
      ensures SessionCpStored(store, plans[i], cp, fps)
    {
      var u := plans[i].uuid;
      if Detected(plans[i], cp) {
        CpWritesPosition(plans, cp, fps, i);
        var k :| 0 <= k && k + 1 < |w| && w[k] == SessionCpWrites(plans[i], cp, fps)[0] && w[k + 1] == SessionCpWrites(plans[i], cp, fps)[1];
        assert w[k].0 in Names(w) && w[k + 1].0 in Names(w);
      } else {
        CpNamesDistinct(u, u);
        forall n | n in Names(w)
          ensures n != CpsScoreName(u) && n != CpsName(u)
        {
          var k :| 0 <= k < |w| && w[k].0 == n;
          CpWritesNames(plans, cp, fps, k);
          var j :| 0 <= j < |plans| && Detected(plans[j], cp) && CpNameOf(w[k].0, plans[j].uuid);
          assert j != i;
          CpNamesDistinct(u, plans[j].uuid);
          CpNamesDistinct(plans[j].uuid, u);
        }
      }
    }
  }

  /** What the changepoint file holds for one session. */
  predicate SessionCpStored(store: CpStore, p: Planned, cp: ChangepointFn, fps: int)
    requires fps != 0
  {
    var res := cp(p.frames, p.timestamps);
    if Detected(p, cp) then
      && CpsScoreName(p.uuid) in store && store[CpsScoreName(p.uuid)] == res.1.value
      && CpsName(p.uuid) in store && store[CpsName(p.uuid)] == PerFrameRate(res.0.value, fps)
    else CpsScoreName(p.uuid) !in store && CpsName(p.uuid) !in store
  }

  /** Scores written by the apply step are read back unchanged, provided the
      reindexer pads without disturbing the real rows: the padded rows are
      exactly those whose index is NaN. */
  lemma ApplyThenReadBack(uuids: seq<string>, files: seq<H5File>, frameCounts: seq<nat>, results: seq<Mat>,
                          fps: int, reindex: ApplyDriver.ReindexFn, i: nat)
    requires |files| == |uuids| && |frameCounts| == |uuids| && |results| == |uuids| && fps != 0
    requires Distinct(uuids) && i < |uuids|
    requires var out := reindex(results[i], ApplyDriver.SessionTimestamps(files, frameCounts, i, fps));
      |out.0| == |out.1| && RealRows(out.0, out.1) == results[i]
    ensures var stamps := ApplyDriver.AllTimestamps(files, frameCounts, fps);
      var store := WriteAll(map[], ApplyDriver.ScoreWrites(uuids, stamps, results, reindex));
      store.Success? && StoredScores(store.value, uuids[i]) == Success(results[i])
  {
    var stamps := ApplyDriver.AllTimestamps(files, frameCounts, fps);
    ApplyDriver.ScoreWritesStoreEverySession(uuids, stamps, results, reindex);
    var store := WriteAll(map[], ApplyDriver.ScoreWrites(uuids, stamps, results, reindex)).value;
    assert ApplyDriver.SessionStored(store, uuids, stamps, results, reindex, i);
  }
}

=== FILE: cli.dfy ===
/** The Azure Kinect defaults of the `train-pca` command (cli.py lines
    106-112): when the camera is an Azure, the two filter sizes still at the
    Kinect v2 defaults are replaced by the Azure ones. */
module Cli {
  import opened Outcomes
  import opened PyValues

  const K2GaussSpace := VTuple([VReal(1.5), VInt(1)])
  const AzureGaussSpace := VTuple([VReal(2.25), VReal(1.5)])
  const K2TailSize := VTuple([VInt(9), VInt(9)])
  const AzureTailSize := VTuple([VInt(13), VInt(13)])

  predicate IsAzure(args: Dict) {
    PyEq(Get(args, "camera_type", VNone), VStr("azure"))
  }

  /** Replace `args[key]` by `to` when it equals `from` in Python's sense. */
  function Remap(args: Dict, key: string, from: Value, to: Value): (r: Result<Dict>)
    ensures r.Success? <==> key in args
    ensures r.Failure? ==> r.error == KeyError(key)
    ensures r.Success? ==> r.value.Keys == args.Keys
    ensures r.Success? ==> r.value[key] == if PyEq(args[key], from) then to else args[key]
    ensures r.Success? ==> forall k :: k in args && k != key ==> r.value[k] == args[k]
  {
    var current :- Index(args, key);
    if PyEq(current, from) then Success(args[key := to]) else Success(args)
  }

  function AzureDefaults(args: Dict): (r: Result<Dict>)
    ensures !IsAzure(args) ==> r == Success(args)
    ensures IsAzure(args) && "gaussfilter_space" !in args ==> r == Failure(KeyError("gaussfilter_space"))
    ensures IsAzure(args) && "gaussfilter_space" in args && "tailfilter_size" !in args ==> r == Failure(KeyError("tailfilter_size"))
    ensures IsAzure(args) ==> (r.Success? <==> "gaussfilter_space" in args && "tailfilter_size" in args)
    ensures r.Success? ==> r.value.Keys == args.Keys
    ensures r.Success? ==> forall k :: k in args && k != "gaussfilter_space" && k != "tailfilter_size" ==> r.value[k] == args[k]
    ensures r.Success? && IsAzure(args) ==>
      && r.value["gaussfilter_space"] == (if PyEq(args["gaussfilter_space"], K2GaussSpace) then AzureGaussSpace else args["gaussfilter_space"])
      && r.value["tailfilter_size"] == (if PyEq(args["tailfilter_size"], K2TailSize) then AzureTailSize else args["tailfilter_size"])
  {
    if !IsAzure(args) then Success(args)
    else
      var withGauss :- Remap(args, "gaussfilter_space", K2GaussSpace, AzureGaussSpace);
      Remap(withGauss, "tailfilter_size", K2TailSize, AzureTailSize)
  }

  /** The remap does not touch the camera type, so applying it again
      changes nothing: the Azure values are not the Kinect v2 ones. */
  lemma AzureDefaultsIdempotent(args: Dict)
    requires AzureDefaults(args).Success?
    ensures AzureDefaults(AzureDefaults(args).value) == AzureDefaults(args)
  {
    var once := AzureDefaults(args).value;
    if IsAzure(args) {
      assert Get(once, "camera_type", VNone) == Get(args, "camera_type", VNone);
      assert !PyEq(AzureGaussSpace, K2GaussSpace) by {
        assert !PyEq(VReal(2.25), VReal(1.5));
      }
      assert !PyEq(AzureTailSize, K2TailSize) by {
        assert !PyEq(VInt(13), VInt(9));
      }
      var twice := AzureDefaults(once).value;
      assert twice.Keys == once.Keys;
      assert forall k :: k in once ==> twice[k] == once[k];
    }
  }

  /** Python's `==` is numeric: the default typed as two floats is still
      recognised, while the same numbers in a list are not. */
  lemma DefaultRecognisedAcrossNumberTypes(args: Dict)
    requires "camera_type" in args && args["camera_type"] == VStr("azure")
    requires "tailfilter_size" in args
    ensures var floats := args["gaussfilter_space" := VTuple([VReal(1.5), VReal(1.0)])];
      AzureDefaults(floats).Success? && AzureDefaults(floats).value["gaussfilter_space"] == AzureGaussSpace
    ensures var list := args["gaussfilter_space" := VList([VReal(1.5), VInt(1)])];
      AzureDefaults(list).Success? && AzureDefaults(list).value["gaussfilter_space"] == VList([VReal(1.5), VInt(1)])
  {
    var floats := args["gaussfilter_space" := VTuple([VReal(1.5), VReal(1.0)])];
    assert IsAzure(floats);
    assert PyEq(VTuple([VReal(1.5), VReal(1.0)]), K2GaussSpace) by {
      assert ItemsEq([VReal(1.5), VReal(1.0)][1..], [VReal(1.5), VInt(1)][1..]);
    }
    var list := args["gaussfilter_space" := VList([VReal(1.5), VInt(1)])];
    assert IsAzure(list);
  }
}

=== FILE: components.dfy ===
/** The post-processing of `train_pca_dask`: the sign normalisation of the
    singular vectors, the explained-variance formulas, and the training
    step from the cleaned frame matrix to the output bundle. */
module Components {
  import opened Outcomes
  import opened Matrix
  import opened Masking
  import opened Imputation

  function Abs(x: real): real {
    if x < 0.0 then -x else x
  }

  /** `np.sign` */
  function Sign(x: real): real {
    if x > 0.0 then 1.0 else if x < 0.0 then -1.0 else 0.0
  }

  /** `np.argmax(np.abs(row))`: the FIRST index of maximum magnitude. */
  function ArgMaxAbs(row: Vec): (k: nat)
    requires |row| > 0
    ensures k < |row|
    ensures forall j :: 0 <= j < |row| ==> Abs(row[j]) <= Abs(row[k])
    ensures forall j :: 0 <= j < k ==> Abs(row[j]) < Abs(row[k])
  {
    ArgMaxAbsFrom(row, 1, 0)
  }

  /** Scan from `i` keeping `best`, the first index of maximum magnitude
      among `row[..i]`. */
  function ArgMaxAbsFrom(row: Vec, i: nat, best: nat): (k: nat)
    requires best < i <= |row|
    requires forall j :: 0 <= j < i ==> Abs(row[j]) <= Abs(row[best])
    requires forall j :: 0 <= j < best ==> Abs(row[j]) < Abs(row[best])
    ensures k < |row|
    ensures forall j :: 0 <= j < |row| ==> Abs(row[j]) <= Abs(row[k])
    ensures forall j :: 0 <= j < k ==> Abs(row[j]) < Abs(row[k])
    decreases |row| - i
  {
    if i == |row| then best
    else if Abs(row[i]) > Abs(row[best]) then ArgMaxAbsFrom(row, i + 1, i)
    else ArgMaxAbsFrom(row, i + 1, best)
  }

  /** The first index of maximum magnitude is determined by the magnitudes
      alone. */
  lemma ArgMaxAbsDependsOnMagnitudes(a: Vec, b: Vec)
    requires |a| == |b| > 0
    requires forall j :: 0 <= j < |a| ==> Abs(a[j]) == Abs(b[j])
    ensures ArgMaxAbs(a) == ArgMaxAbs(b)
  {
  }

  /** The row with every entry negated. */
  function Negate(row: Vec): (r: Vec)
    ensures |r| == |row| && forall j :: 0 <= j < |row| ==> r[j] == -row[j]
  {
    seq(|row|, j requires 0 <= j < |row| => -row[j])
  }

  predicate AllZero(row: Vec) {
    forall j :: 0 <= j < |row| ==> row[j] == 0.0
  }

  /** Multiply a row by the sign of its first largest-magnitude entry. */
  function FixRowSign(row: Vec): (r: Vec)
    requires |row| > 0
    ensures |r| == |row|
    ensures forall j :: 0 <= j < |row| ==> Abs(r[j]) == Abs(row[j])
    ensures ArgMaxAbs(r) == ArgMaxAbs(row)
    ensures r[ArgMaxAbs(row)] >= 0.0
    ensures AllZero(row) ==> r == row
    ensures (forall j :: 0 <= j < |row| ==> r[j] == row[j]) || (forall j :: 0 <= j < |row| ==> r[j] == -row[j])
  {
    var k := ArgMaxAbs(row);
    var c := Sign(row[k]);
    var r := seq(|row|, j requires 0 <= j < |row| => c * row[j]);
    assert forall j :: 0 <= j < |row| ==> Abs(r[j]) == Abs(row[j]) by {
      forall j | 0 <= j < |row|
        ensures Abs(r[j]) == Abs(row[j])
      {
        if c == 0.0 {
          assert row[k] == 0.0;
          assert Abs(row[j]) <= 0.0;
        }
      }
    }
    ArgMaxAbsDependsOnMagnitudes(r, row);
    r
  }

  /** Sign correction is idempotent. */
  lemma FixRowSignIdempotent(row: Vec)
    requires |row| > 0
    ensures FixRowSign(FixRowSign(row)) == FixRowSign(row)
  {
    var once := FixRowSign(row);
    var k := ArgMaxAbs(row);
    assert ArgMaxAbs(once) == k;
    if once[k] == 0.0 {
      assert AllZero(once) by {
        forall j | 0 <= j < |once|
          ensures once[j] == 0.0
        {
          assert Abs(once[j]) <= Abs(once[k]);
        }
      }
    } else {
      assert Sign(once[k]) == 1.0;
      assert FixRowSign(once) == once;
    }
  }

  /** Lines 245-247 of `train_pca_dask` over all rows of `v`, whose rows have
      length `d`. `np.argmax` of a zero-length row raises `ValueError`. */
  function CorrectSigns(v: Mat, d: nat): (r: Result<Mat>)
    requires IsMatrix(v, |v|, d)
    ensures r.Failure? <==> d == 0
    ensures r.Success? ==> IsMatrix(r.value, |v|, d)
    ensures r.Success? ==> forall i :: 0 <= i < |v| ==> r.value[i] == FixRowSign(v[i])
  {
    if d == 0 then Failure(ValueError("attempt to get argmax of an empty sequence"))
    else Success(seq(|v|, i requires 0 <= i < |v| => FixRowSign(v[i])))
  }

  /** The sign-corrected components: each row is its input row times one
      sign, its first largest-magnitude entry is non-negative, magnitudes and
      argmax positions are kept, and a second correction changes nothing. */
  lemma CorrectSignsNormalises(v: Mat, d: nat)
    requires IsMatrix(v, |v|, d) && d > 0
    ensures var w := CorrectSigns(v, d).value;
      && (forall i :: 0 <= i < |v| ==> w[i][ArgMaxAbs(v[i])] >= 0.0 && ArgMaxAbs(w[i]) == ArgMaxAbs(v[i]))
      && (forall i, j :: 0 <= i < |v| && 0 <= j < d ==> Abs(w[i][j]) == Abs(v[i][j]))
      && (forall i :: 0 <= i < |v| ==> w[i] == v[i] || w[i] == Negate(v[i]))
      && CorrectSigns(w, d) == Success(w)
  {
    var w := CorrectSigns(v, d).value;
    forall i | 0 <= i < |v|
      ensures FixRowSign(w[i]) == w[i]
    {
      FixRowSignIdempotent(v[i]);
    }
    forall i | 0 <= i < |v|
      ensures w[i] == v[i] || w[i] == Negate(v[i])
    {
      if w[i] != v[i] {
        assert w[i] == Negate(v[i]);
      }
    }
    assert CorrectSigns(w, d).value == w;
  }

  /** `compute_explained_variance(s, nsamples, total_var)`. A division by
      zero (or by NaN) makes numpy produce non-finite values, modelled as
      `None`; it does not raise. */
  datatype Variances = Variances(explained: Option<Vec>, ratio: Option<Vec>)

  function ExplainedVariance(s: Vec, nsamples: nat, totalVar: Option<real>): (r: Variances)
    ensures r.explained.None? <==> |s| > 0 && nsamples == 1
    ensures r.ratio.None? <==> |s| > 0 && (nsamples == 1 || totalVar.None? || totalVar == Some(0.0))
    ensures r.explained.Some? ==> |r.explained.value| == |s|
    ensures r.explained.Some? ==> forall i :: 0 <= i < |s| ==> r.explained.value[i] * ((nsamples - 1) as real) == s[i] * s[i]
    ensures r.explained.Some? && nsamples > 1 ==> forall i :: 0 <= i < |s| ==> r.explained.value[i] >= 0.0
    ensures r.ratio.Some? ==> |r.ratio.value| == |s|
    ensures r.ratio.Some? && |s| > 0 ==> forall i :: 0 <= i < |s| ==> r.ratio.value[i] * totalVar.value == r.explained.value[i]
  {
    if |s| == 0 then Variances(Some([]), Some([]))
    else if nsamples == 1 then Variances(None, None)
    else
      var n1 := (nsamples - 1) as real;
      var ev := seq(|s|, i requires 0 <= i < |s| => s[i] * s[i] / n1);
      assert forall i :: 0 <= i < |s| ==> ev[i] * n1 == s[i] * s[i];
      assert nsamples > 1 ==> forall i :: 0 <= i < |s| ==> ev[i] >= 0.0 by {
        forall i | 0 <= i < |s| && nsamples > 1
          ensures ev[i] >= 0.0
        {
          SquareNonNegative(s[i]);
        }
      }
      if totalVar.None? || totalVar == Some(0.0) then Variances(Some(ev), None)
      else Variances(Some(ev), Some(seq(|s|, i requires 0 <= i < |s| => ev[i] / totalVar.value)))
  }

  /** The output dictionary of `train_pca_dask`. */
  datatype PcaModel = PcaModel(
    components: Mat,
    singularValues: Vec,
    explainedVariance: Option<Vec>,
    explainedVarianceRatio: Option<Vec>,
    mean: Vec)

  /** `train_pca_dask` from line 219 on: `x` is the cleaned frame matrix
      (frames x pixels) and `mask`, when present, its invalid-pixel mask,
      which switches missing-data mode on. */
  function TrainFromCleaned(x: Mat, mask: Option<BoolMat>, rank: nat, iters: nat, reconPcs: nat, lo: real, hi: real, svd: SvdFn, recon: ReconFn): (r: Result<PcaModel>)
    requires |x| >= 1 && IsMatrix(x, |x|, |x[0]|)
    requires mask.Some? ==> SameShape(mask.value, x)
    ensures r.Success? ==> |r.value.mean| == |x[0]|
    ensures r.Success? ==> forall i :: 0 <= i < |r.value.components| ==>
      |x[0]| > 0 && |r.value.components[i]| == |x[0]| && r.value.components[i][ArgMaxAbs(r.value.components[i])] >= 0.0
    ensures r.Success? && r.value.explainedVariance.Some? ==> |r.value.explainedVariance.value| == |r.value.singularValues|
    ensures r.Success? && r.value.explainedVarianceRatio.Some? ==> |r.value.explainedVarianceRatio.value| == |r.value.singularValues|
    ensures mask.Some? && iters == 0 ==> r == Failure(UnboundLocalError("s"))
    ensures var p := ImputeParams(if mask.Some? then mask.value else [], rank, reconPcs, lo, hi);
      var out := SvdResult(x, ColumnMean(x, |x[0]|), iters, mask.Some?, p, svd, recon);
      && (r.Success? <==> out.Success? && IsMatrix(out.value.v, |out.value.v|, |x[0]|) && |x[0]| > 0)
      && (out.Failure? ==> r == Failure(out.error))
      && (out.Success? && !IsMatrix(out.value.v, |out.value.v|, |x[0]|) ==>
            r == Failure(ValueError("components do not match the frame width")))
      && (out.Success? && IsMatrix(out.value.v, |out.value.v|, |x[0]|) && |x[0]| == 0 ==> r == Failure(ValueError("attempt to get argmax of an empty sequence")))
  {
    var d := |x[0]|;
    var mean := ColumnMean(x, d);
    var p := ImputeParams(if mask.Some? then mask.value else [], rank, reconPcs, lo, hi);
    var svdOut := SvdResult(x, mean, iters, mask.Some?, p, svd, recon);
    if svdOut.Failure? then Failure(svdOut.error)
    else
      var out := svdOut.value;
      if !IsMatrix(out.v, |out.v|, d) then Failure(ValueError("components do not match the frame width"))
      else
        var comps :- CorrectSigns(out.v, d);
        CorrectSignsNormalises(out.v, d);
        var vars := ExplainedVariance(out.s, |x|, out.totalVar);
        Success(PcaModel(comps, out.s, vars.explained, vars.ratio, out.mean))
  }

  /** The trained model reports the last SVD: its components are that
      SVD's rows with their signs corrected, its singular values, mean and
      variances are the SVD's, and in missing-data mode the frames behind
      it differ from the input only in masked cells. */
  lemma TrainFromCleanedReportsSvd(x: Mat, mask: Option<BoolMat>, rank: nat, iters: nat, reconPcs: nat, lo: real, hi: real, svd: SvdFn, recon: ReconFn)
    requires |x| >= 1 && IsMatrix(x, |x|, |x[0]|)
    requires mask.Some? ==> SameShape(mask.value, x)
    requires TrainFromCleaned(x, mask, rank, iters, reconPcs, lo, hi, svd, recon).Success?
    ensures var m := TrainFromCleaned(x, mask, rank, iters, reconPcs, lo, hi, svd, recon).value;
      var p := ImputeParams(if mask.Some? then mask.value else [], rank, reconPcs, lo, hi);
      var out := SvdResult(x, ColumnMean(x, |x[0]|), iters, mask.Some?, p, svd, recon);
      && out.Success?
      && |m.components| == |out.value.v|
      && (forall i :: 0 <= i < |m.components| ==> m.components[i] == FixRowSign(out.value.v[i]))
      && m.singularValues == out.value.s && m.mean == out.value.mean
      && m.explainedVariance == ExplainedVariance(out.value.s, |x|, out.value.totalVar).explained
      && m.explainedVarianceRatio == ExplainedVariance(out.value.s, |x|, out.value.totalVar).ratio
      && (mask.Some? ==> AgreeOffMask(out.value.data, x, mask.value))
  {
    if mask.Some? {
      var p := ImputeParams(mask.value, rank, reconPcs, lo, hi);
      SvdResultOnlyMasked(x, ColumnMean(x, |x[0]|), iters, p, svd, recon);
    }
  }
}

=== FILE: imputation.dfy ===
/** `compute_svd`: the rank-truncated SVD of the mean-centred frame matrix,
    and in missing-data mode the fixed-iteration imputation loop around it.
    The SVD (`svd_compressed`) and the low-rank reconstruction
    `U[:, :p] diag(S[:p]) V[:p, :] + mean` are numeric routines outside the
    model; they enter as function-valued parameters about which nothing is
    assumed. */
module Imputation {
  import opened Outcomes
  import opened Matrix
  import opened Masking

  /** What `svd_compressed` returns. */
  datatype Svd = Svd(u: Mat, s: Vec, v: Mat)

  /** `svd_compressed(centred, rank)` */
  type SvdFn = (Mat, nat) -> Svd

  /** The reconstruction from an SVD, a component count and the mean. */
  type ReconFn = (Svd, nat, Vec) -> Mat

  /** The frame array and the mean carried from one iteration to the next. */
  datatype State = State(data: Mat, mean: Vec)

  /** `s, v, mean, total_var`, together with the final frame array. */
  datatype SvdOutput = SvdOutput(s: Vec, v: Mat, mean: Vec, totalVar: Option<real>, data: Mat)

  /** The imputation settings that stay fixed across iterations. */
  datatype ImputeParams = ImputeParams(mask: BoolMat, rank: nat, reconPcs: nat, lo: real, hi: real)

  predicate Valid(st: State, mask: BoolMat) {
    IsMatrix(st.data, |st.data|, |st.mean|) && |st.data| >= 1 && SameShape(mask, st.data)
  }

  const ReconShapeMessage := "reconstruction shape does not match the frame array"

  /** One imputation: SVD of the centred array, reconstruction with zeroing
      outside [lo, hi], merge into the masked cells, new column mean. A
      reconstruction of the wrong shape makes the merge raise. */
  function ImputeStep(st: State, p: ImputeParams, svd: SvdFn, recon: ReconFn): (r: Result<State>)
    requires Valid(st, p.mask)
    ensures r.Success? ==> Valid(r.value, p.mask) && |r.value.data| == |st.data| && |r.value.mean| == |st.mean|
    ensures r.Success? ==> AgreeOffMask(r.value.data, st.data, p.mask)
    ensures r.Success? ==> MaskedInRange(r.value.data, p.mask, p.lo, p.hi)
    ensures r.Success? ==> r.value.mean == ColumnMean(r.value.data, |st.mean|)
    ensures r.Failure? ==> r.error == ValueError(ReconShapeMessage)
  {
    var f := svd(Center(st.data, st.mean), p.rank);
    var rc := ZeroMatrix(recon(f, p.reconPcs, st.mean), p.lo, p.hi);
    if !SameShape(rc, st.data) then Failure(ValueError(ReconShapeMessage))
    else
      var x := MaskData(st.data, p.mask, rc);
      Success(State(x, ColumnMean(x, |st.mean|)))
  }

  /** `k` imputation steps in a row. */
  function Impute(st: State, p: ImputeParams, svd: SvdFn, recon: ReconFn, k: nat): (r: Result<State>)
    requires Valid(st, p.mask)
    ensures k == 0 ==> r == Success(st)
    ensures r.Success? ==> Valid(r.value, p.mask) && |r.value.data| == |st.data| && |r.value.mean| == |st.mean|
    ensures r.Failure? ==> r.error == ValueError(ReconShapeMessage)
    decreases k
  {
    if k == 0 then Success(st)
    else
      var prev :- Impute(st, p, svd, recon, k - 1);
      ImputeStep(prev, p, svd, recon)
  }

  /** Imputation only ever writes the masked cells: the observed cells keep
      their values, and after at least one step every masked cell lies in
      [lo, hi] and the mean is the column mean of the imputed array. */
  lemma {:induction false} ImputeOnlyMasked(st: State, p: ImputeParams, svd: SvdFn, recon: ReconFn, k: nat)
    requires Valid(st, p.mask) && Impute(st, p, svd, recon, k).Success?
    ensures var r := Impute(st, p, svd, recon, k).value;
      AgreeOffMask(r.data, st.data, p.mask)
      && (k >= 1 ==> MaskedInRange(r.data, p.mask, p.lo, p.hi) && r.mean == ColumnMean(r.data, |st.mean|))
    decreases k
  {
    if k > 0 {
      ImputeOnlyMasked(st, p, svd, recon, k - 1);
      var prev := Impute(st, p, svd, recon, k - 1).value;
      var r := Impute(st, p, svd, recon, k).value;
      assert ImputeStep(prev, p, svd, recon) == Success(r);
    }
  }

  /** Once an imputation step fails, every longer run fails the same way. */
  lemma {:induction false} ImputeFailurePersists(st: State, p: ImputeParams, svd: SvdFn, recon: ReconFn, k: nat, k': nat)
    requires Valid(st, p.mask)
    requires k <= k' && Impute(st, p, svd, recon, k).Failure?
    ensures Impute(st, p, svd, recon, k') == Impute(st, p, svd, recon, k)
    decreases k'
  {
    if k' > k {
      ImputeFailurePersists(st, p, svd, recon, k, k' - 1);
    }
  }

  /** The result `compute_svd` returns, defined without its loop: without
      missing data one SVD of the centred input; with missing data `iters`
      SVDs of which all but the last are followed by an imputation, i.e. the
      last SVD is taken of the array after `iters - 1` imputations. With
      `iters == 0` the loop never binds `s`. */
  function SvdResult(x: Mat, mean: Vec, iters: nat, missingData: bool, p: ImputeParams, svd: SvdFn, recon: ReconFn): (r: Result<SvdOutput>)
    requires IsMatrix(x, |x|, |mean|) && |x| >= 1
    requires missingData ==> SameShape(p.mask, x)
    ensures !missingData ==> r.Success? && r.value.data == x && r.value.mean == mean
    ensures missingData && iters == 0 ==> r == Failure(UnboundLocalError("s"))
    ensures missingData && iters == 1 ==> r.Success? && r.value.data == x && r.value.mean == mean
    ensures r.Success? ==> IsMatrix(r.value.data, |x|, |mean|) && |r.value.mean| == |mean|
    ensures r.Success? ==> r.value.totalVar == TotalVariance(r.value.data, |mean|)
    ensures r.Success? ==> var f := svd(Center(r.value.data, r.value.mean), p.rank); r.value.s == f.s && r.value.v == f.v
    ensures r.Failure? && (!missingData || iters >= 1) ==> r.error == ValueError(ReconShapeMessage)
  {
    if !missingData then
      var f := svd(Center(x, mean), p.rank);
      Success(SvdOutput(f.s, f.v, mean, TotalVariance(x, |mean|), x))
    else if iters == 0 then Failure(UnboundLocalError("s"))
    else
      var st :- Impute(State(x, mean), p, svd, recon, iters - 1);
      var f := svd(Center(st.data, st.mean), p.rank);
      Success(SvdOutput(f.s, f.v, st.mean, TotalVariance(st.data, |mean|), st.data))
  }

  /** In missing-data mode the final array differs from the input only in
      masked cells, and after at least one imputation those lie in [lo, hi]
      and the returned mean is the column mean of the final array. */
  lemma SvdResultOnlyMasked(x: Mat, mean: Vec, iters: nat, p: ImputeParams, svd: SvdFn, recon: ReconFn)
    requires IsMatrix(x, |x|, |mean|) && |x| >= 1 && SameShape(p.mask, x)
    requires SvdResult(x, mean, iters, true, p, svd, recon).Success?
    ensures var r := SvdResult(x, mean, iters, true, p, svd, recon).value;
      AgreeOffMask(r.data, x, p.mask)
      && (iters >= 2 ==> MaskedInRange(r.data, p.mask, p.lo, p.hi) && r.mean == ColumnMean(r.data, |mean|))
  {
    ImputeOnlyMasked(State(x, mean), p, svd, recon, iters - 1);
  }

  /** One more imputation continues from where `k` of them left off. */
  lemma ImputeNext(st: State, p: ImputeParams, svd: SvdFn, recon: ReconFn, k: nat, cur: State)
    requires Valid(st, p.mask) && Impute(st, p, svd, recon, k) == Success(cur)
    ensures Valid(cur, p.mask) && Impute(st, p, svd, recon, k + 1) == ImputeStep(cur, p, svd, recon)
  {
  }

  /** In missing-data mode the result is the last SVD, of the array the
      `iters - 1` imputations left. */
  lemma SvdResultAfterImputing(x: Mat, mean: Vec, iters: nat, p: ImputeParams, svd: SvdFn, recon: ReconFn, st: State)
    requires IsMatrix(x, |x|, |mean|) && |x| >= 1 && SameShape(p.mask, x) && iters >= 1
    requires Impute(State(x, mean), p, svd, recon, iters - 1) == Success(st)
    ensures var f := svd(Center(st.data, st.mean), p.rank);
      SvdResult(x, mean, iters, true, p, svd, recon) == Success(SvdOutput(f.s, f.v, st.mean, TotalVariance(st.data, |mean|), st.data))
  {
  }

  /** A failed imputation, before the last pass, is the result of the
      whole run. */
  lemma SvdResultFailedImputing(x: Mat, mean: Vec, iters: nat, p: ImputeParams, svd: SvdFn, recon: ReconFn, k: nat)
    requires IsMatrix(x, |x|, |mean|) && |x| >= 1 && SameShape(p.mask, x) && k < iters
    requires Impute(State(x, mean), p, svd, recon, k).Failure?
    ensures SvdResult(x, mean, iters, true, p, svd, recon) == Failure(ValueError(ReconShapeMessage))
  {
    ImputeFailurePersists(State(x, mean), p, svd, recon, k, iters - 1);
    assert Impute(State(x, mean), p, svd, recon, iters - 1).Failure?;
  }

  /** One pass that imputes: the SVD of the current array, its zeroed
      reconstruction merged into the masked cells, and the new mean. The
      second result counts the SVD runs. */
  method ImputingPass(st0: State, p: ImputeParams, svd: SvdFn, recon: ReconFn, k: nat, st: State)
    returns (next: Result<State>, svdRuns: nat)
    requires Valid(st0, p.mask) && Impute(st0, p, svd, recon, k) == Success(st)
    ensures next == Impute(st0, p, svd, recon, k + 1)
    ensures svdRuns == 1
  {
    ImputeNext(st0, p, svd, recon, k, st);
    var f := svd(Center(st.data, st.mean), p.rank);
    svdRuns := 1;
    var rc := ZeroMatrix(recon(f, p.reconPcs, st.mean), p.lo, p.hi);
    if !SameShape(rc, st.data) {
      return Failure(ValueError(ReconShapeMessage)), svdRuns;
    }
    var merged := MaskData(st.data, p.mask, rc);
    next := Success(State(merged, ColumnMean(merged, |st.mean|)));
  }

  /** `compute_svd` as written. The two extra results count the SVD runs
      and the imputations. */
  method ComputeSvd(x: Mat, mean: Vec, iters: nat, missingData: bool, p: ImputeParams, svd: SvdFn, recon: ReconFn)
    returns (r: Result<SvdOutput>, svdRuns: nat, imputations: nat)
    requires IsMatrix(x, |x|, |mean|) && |x| >= 1
    requires missingData ==> SameShape(p.mask, x)
    ensures r == SvdResult(x, mean, iters, missingData, p, svd, recon)
    ensures r.Success? ==> svdRuns == (if missingData then iters else 1)
    ensures r.Success? ==> imputations == (if missingData then iters - 1 else 0)
  {
    if !missingData {
      var f := svd(Center(x, mean), p.rank);
      return Success(SvdOutput(f.s, f.v, mean, TotalVariance(x, |mean|), x)), 1, 0;
    }
    r, svdRuns, imputations := ImputationLoop(x, mean, iters, p, svd, recon);
  }

  /** The `for iter in range(iters)` loop of missing-data mode: an SVD on
      every pass, an imputation on every pass but the last. The SVD of a
      pass that imputes is the one `ImputeStep` reconstructs from, so the
      loop runs the `iters - 1` imputing passes and then the last SVD; with
      `iters == 0` nothing binds `s`. */
  method ImputationLoop(x: Mat, mean: Vec, iters: nat, p: ImputeParams, svd: SvdFn, recon: ReconFn)
    returns (r: Result<SvdOutput>, svdRuns: nat, imputations: nat)
    requires IsMatrix(x, |x|, |mean|) && |x| >= 1 && SameShape(p.mask, x)
    ensures r == SvdResult(x, mean, iters, true, p, svd, recon)
    ensures r.Success? ==> svdRuns == iters && imputations == iters - 1
  {
    if iters == 0 {
      return Failure(UnboundLocalError("s")), 0, 0;
    }
    var imputed, lastRuns;
    imputed, imputations, svdRuns := ImputingPasses(State(x, mean), p, svd, recon, iters - 1);
    if imputed.Failure? {
      return Failure(imputed.error), svdRuns, imputations;
    }
    r, lastRuns := LastPass(x, mean, iters, p, svd, recon, imputed.value);
    svdRuns := svdRuns + lastRuns;
  }

  /** The first `n` passes of the loop, each of which imputes; a pass
      whose reconstruction fails has still run its SVD. */
  method ImputingPasses(st0: State, p: ImputeParams, svd: SvdFn, recon: ReconFn, n: nat)
    returns (r: Result<State>, passes: nat, svdRuns: nat)
    requires Valid(st0, p.mask)
    ensures r == Impute(st0, p, svd, recon, n)
    ensures r.Success? ==> passes == n
    ensures svdRuns == passes
  {
    var st := st0;
    passes, svdRuns := 0, 0;
    while passes < n
      invariant passes <= n && Impute(st0, p, svd, recon, passes) == Success(st)
      invariant svdRuns == passes
    {
      var next, runs := ImputingPass(st0, p, svd, recon, passes, st);
      svdRuns := svdRuns + runs;
      if next.Failure? {
        ImputeFailurePersists(st0, p, svd, recon, passes + 1, n);
        return next, passes + 1, svdRuns;
      }
      st := next.value;
      passes := passes + 1;
    }
    r := Success(st);
  }

  /** The last pass of the loop: an SVD with nothing imputed after it. */
  method LastPass(x: Mat, mean: Vec, iters: nat, p: ImputeParams, svd: SvdFn, recon: ReconFn, st: State)
    returns (r: Result<SvdOutput>, svdRuns: nat)
    requires IsMatrix(x, |x|, |mean|) && |x| >= 1 && SameShape(p.mask, x) && iters >= 1
    requires Impute(State(x, mean), p, svd, recon, iters - 1) == Success(st)
    ensures r == SvdResult(x, mean, iters, true, p, svd, recon)
    ensures svdRuns == 1
  {
    SvdResultAfterImputing(x, mean, iters, p, svd, recon, st);
    var f := svd(Center(st.data, st.mean), p.rank);
    svdRuns := 1;
    r := Success(SvdOutput(f.s, f.v, st.mean, TotalVariance(st.data, |mean|), st.data));
  }
}

=== FILE: masking.dfy ===
/** The element-wise rules around missing-data PCA: the masked merge of
    `mask_data`, the height zeroing applied to reconstructions and to the
    stacked training frames, and the construction of the invalid-pixel mask. */
module Masking {
  import opened Matrix

  /** `recon[recon < lo] = 0` followed by `recon[recon > hi] = 0`, on one
      value: the two statements run in this order in the source. */
  function ZeroBelow(x: real, lo: real): real {
    if x < lo then 0.0 else x
  }

  function ZeroAbove(x: real, hi: real): real {
    if x > hi then 0.0 else x
  }

  /** Height zeroing: a value outside [lo, hi] becomes 0; it is not clamped
      to the violated bound. */
  function ZeroOutside(x: real, lo: real, hi: real): (r: real)
    ensures lo <= x <= hi ==> r == x
    ensures x < lo || x > hi ==> r == 0.0
    ensures r == 0.0 || lo <= r <= hi
  {
    ZeroAbove(ZeroBelow(x, lo), hi)
  }

  /** Zeroing is idempotent. */
  lemma ZeroOutsideIdempotent(x: real, lo: real, hi: real)
    ensures ZeroOutside(ZeroOutside(x, lo, hi), lo, hi) == ZeroOutside(x, lo, hi)
  {
  }

  /** Zeroing differs from clamping whenever the bound violated is not 0. */
  lemma ZeroOutsideIsNotClamp(x: real, lo: real, hi: real)
    requires x > hi && hi != 0.0
    ensures ZeroOutside(x, lo, hi) != hi
  {
  }

  /** Height zeroing of every element of a matrix. */
  function ZeroMatrix(m: Mat, lo: real, hi: real): (r: Mat)
    ensures SameShape(r, m)
    ensures forall i, j :: 0 <= i < |m| && 0 <= j < |m[i]| ==> r[i][j] == ZeroOutside(m[i][j], lo, hi)
  {
    seq(|m|, i requires 0 <= i < |m| => seq(|m[i]|, j requires 0 <= j < |m[i]| => ZeroOutside(m[i][j], lo, hi)))
  }

  /** After zeroing, every element is 0 or within [lo, hi], and elements that
      were already within range are unchanged. */
  lemma ZeroMatrixInRange(m: Mat, lo: real, hi: real)
    ensures var r := ZeroMatrix(m, lo, hi);
      forall i, j :: 0 <= i < |m| && 0 <= j < |m[i]| ==>
        (r[i][j] == 0.0 || lo <= r[i][j] <= hi) && (lo <= m[i][j] <= hi ==> r[i][j] == m[i][j])
  {
  }

  lemma ZeroMatrixIdempotent(m: Mat, lo: real, hi: real)
    ensures ZeroMatrix(ZeroMatrix(m, lo, hi), lo, hi) == ZeroMatrix(m, lo, hi)
  {
    var once := ZeroMatrix(m, lo, hi);
    var twice := ZeroMatrix(once, lo, hi);
    forall i | 0 <= i < |m|
      ensures twice[i] == once[i]
    {
      forall j | 0 <= j < |m[i]|
        ensures twice[i][j] == once[i][j]
      {
        ZeroOutsideIdempotent(m[i][j], lo, hi);
      }
    }
  }

  /** `mask_data(original, mask, newData)`: a copy of `original` whose masked
      cells are taken from `newData`. Values are immutable, so the original is
      never changed. */
  function MaskData(original: Mat, mask: BoolMat, newData: Mat): (r: Mat)
    requires SameShape(original, mask) && SameShape(original, newData)
    ensures SameShape(r, original)
    ensures forall i, j :: 0 <= i < |r| && 0 <= j < |r[i]| && mask[i][j] ==> r[i][j] == newData[i][j]
    ensures forall i, j :: 0 <= i < |r| && 0 <= j < |r[i]| && !mask[i][j] ==> r[i][j] == original[i][j]
  {
    seq(|original|, i requires 0 <= i < |original| =>
      seq(|original[i]|, j requires 0 <= j < |original[i]| => if mask[i][j] then newData[i][j] else original[i][j]))
  }

  /** Merging twice with the same mask and data is merging once. */
  lemma MaskDataIdempotent(original: Mat, mask: BoolMat, newData: Mat)
    requires SameShape(original, mask) && SameShape(original, newData)
    ensures MaskData(MaskData(original, mask, newData), mask, newData) == MaskData(original, mask, newData)
  {
    MaskDataOverwrites(original, mask, newData, newData);
  }

  /** A second merge with the same mask overrides the first: only the last
      reconstruction matters at masked cells. */
  lemma MaskDataOverwrites(original: Mat, mask: BoolMat, first: Mat, second: Mat)
    requires SameShape(original, mask) && SameShape(original, first) && SameShape(original, second)
    ensures MaskData(MaskData(original, mask, first), mask, second) == MaskData(original, mask, second)
  {
    var a := MaskData(MaskData(original, mask, first), mask, second);
    var b := MaskData(original, mask, second);
    forall i | 0 <= i < |original|
      ensures a[i] == b[i]
    {
      assert |a[i]| == |b[i]|;
      forall j | 0 <= j < |a[i]|
        ensures a[i][j] == b[i][j]
      {
      }
    }
  }

  /** Cells outside the mask agree between two matrices. */
  predicate AgreeOffMask(a: Mat, b: Mat, mask: BoolMat)
    requires SameShape(a, mask) && SameShape(b, mask)
  {
    forall i, j :: 0 <= i < |a| && 0 <= j < |a[i]| && !mask[i][j] ==> a[i][j] == b[i][j]
  }

  /** Every masked cell of `m` is 0 or within [lo, hi]. */
  predicate MaskedInRange(m: Mat, mask: BoolMat, lo: real, hi: real)
    requires SameShape(m, mask)
  {
    forall i, j :: 0 <= i < |m| && 0 <= j < |m[i]| && mask[i][j] ==> m[i][j] == 0.0 || lo <= m[i][j] <= hi
  }

  /** `x[mask] = 0`. */
  function ZeroMasked(x: Mat, mask: BoolMat): (r: Mat)
    requires SameShape(x, mask)
    ensures SameShape(r, x)
    ensures forall i, j :: 0 <= i < |r| && 0 <= j < |r[i]| ==> r[i][j] == (if mask[i][j] then 0.0 else x[i][j])
  {
    seq(|x|, i requires 0 <= i < |x| =>
      seq(|x[i]|, j requires 0 <= j < |x[i]| => if mask[i][j] then 0.0 else x[i][j]))
  }

  /** `logical_and(raw < mask_threshold, frames > mask_height_threshold)`:
      a pixel is invalid when its mask value is below the threshold while
      its depth lies above the floor threshold. */
  function BuildMask(raw: Mat, frames: Mat, maskThreshold: real, heightThreshold: real): (mask: BoolMat)
    requires SameShape(raw, frames)
    ensures SameShape(mask, frames)
    ensures forall i, j :: 0 <= i < |mask| && 0 <= j < |mask[i]| ==>
      (mask[i][j] <==> raw[i][j] < maskThreshold && frames[i][j] > heightThreshold)
  {
    seq(|raw|, i requires 0 <= i < |raw| =>
      seq(|raw[i]|, j requires 0 <= j < |raw[i]| => raw[i][j] < maskThreshold && frames[i][j] > heightThreshold))
  }
}

=== FILE: matrix.dfy ===
/** Dense real matrices as row sequences: a frame stack flattened to
    (frames x pixels), a component matrix (rank x pixels), a score matrix
    (frames x rank). Floating point is modelled by exact `real`s. */
module Matrix {
  import opened Outcomes

  type Vec = seq<real>
  type Mat = seq<Vec>
  type BoolMat = seq<seq<bool>>

  predicate IsMatrix<T>(m: seq<seq<T>>, rows: nat, cols: nat) {
    |m| == rows && forall i :: 0 <= i < |m| ==> |m[i]| == cols
  }

  predicate SameShape<A, B>(a: seq<seq<A>>, b: seq<seq<B>>) {
    |a| == |b| && forall i :: 0 <= i < |a| ==> |a[i]| == |b[i]|
  }

  function Sum(v: Vec): real {
    if |v| == 0 then 0.0 else Sum(v[..|v| - 1]) + v[|v| - 1]
  }

  lemma {:induction false} SumAppend(a: Vec, b: Vec)
    ensures Sum(a + b) == Sum(a) + Sum(b)
    decreases |b|
  {
    if |b| == 0 {
      assert a + b == a;
    } else {
      assert (a + b)[..|a + b| - 1] == a + b[..|b| - 1];
      SumAppend(a, b[..|b| - 1]);
    }
  }

  function Dot(a: Vec, b: Vec): real
    requires |a| == |b|
  {
    if |a| == 0 then 0.0 else Dot(a[..|a| - 1], b[..|b| - 1]) + a[|a| - 1] * b[|b| - 1]
  }

  function Column(m: Mat, j: nat): (c: Vec)
    requires forall i :: 0 <= i < |m| ==> j < |m[i]|
    ensures |c| == |m|
    ensures forall i :: 0 <= i < |m| ==> c[i] == m[i][j]
  {
    seq(|m|, i requires 0 <= i < |m| => m[i][j])
  }

  /** `frames.dot(components.T)`: row i, column k is the inner product of
      frame i with component k. */
  function Project(frames: Mat, comps: Mat, d: nat): (scores: Mat)
    requires IsMatrix(frames, |frames|, d) && IsMatrix(comps, |comps|, d)
    ensures IsMatrix(scores, |frames|, |comps|)
    ensures forall i, k :: 0 <= i < |frames| && 0 <= k < |comps| ==> scores[i][k] == Dot(frames[i], comps[k])
  {
    seq(|frames|, i requires 0 <= i < |frames| =>
      seq(|comps|, k requires 0 <= k < |comps| => Dot(frames[i], comps[k])))
  }

  /** `scores.dot(components)`: row i is the combination of the component
      rows weighted by score row i. */
  function Compose(scores: Mat, comps: Mat, d: nat): (recon: Mat)
    requires IsMatrix(scores, |scores|, |comps|) && IsMatrix(comps, |comps|, d)
    ensures IsMatrix(recon, |scores|, d)
    ensures forall i, j :: 0 <= i < |scores| && 0 <= j < d ==> recon[i][j] == Dot(scores[i], Column(comps, j))
  {
    seq(|scores|, i requires 0 <= i < |scores| =>
      seq(d, j requires 0 <= j < d => Dot(scores[i], Column(comps, j))))
  }

  /** `x.mean(axis=0)` of a matrix with at least one row. */
  function ColumnMean(x: Mat, d: nat): (mean: Vec)
    requires IsMatrix(x, |x|, d) && |x| >= 1
    ensures |mean| == d
    ensures forall j :: 0 <= j < d ==> mean[j] * (|x| as real) == Sum(Column(x, j))
  {
    seq(d, j requires 0 <= j < d => Sum(Column(x, j)) / (|x| as real))
  }

  /** `x - mean`, broadcasting the mean over the rows. */
  function Center(x: Mat, mean: Vec): (c: Mat)
    requires IsMatrix(x, |x|, |mean|)
    ensures IsMatrix(c, |x|, |mean|)
    ensures forall i, j :: 0 <= i < |x| && 0 <= j < |mean| ==> c[i][j] + mean[j] == x[i][j]
  {
    seq(|x|, i requires 0 <= i < |x| => seq(|mean|, j requires 0 <= j < |mean| => x[i][j] - mean[j]))
  }

  function Squares(v: Vec, mu: real): (r: Vec)
    ensures |r| == |v|
    ensures forall i :: 0 <= i < |v| ==> r[i] == (v[i] - mu) * (v[i] - mu)
  {
    seq(|v|, i requires 0 <= i < |v| => (v[i] - mu) * (v[i] - mu))
  }

  lemma {:induction false} SumNonNegative(v: Vec)
    requires forall i :: 0 <= i < |v| ==> v[i] >= 0.0
    ensures Sum(v) >= 0.0
    decreases |v|
  {
    if |v| > 0 {
      SumNonNegative(v[..|v| - 1]);
    }
  }

  /** Unbiased (ddof=1) variance of a column of at least two values. */
  function SampleVariance(c: Vec): (var_: real)
    requires |c| >= 2
    ensures var_ >= 0.0
  {
    var mu := Sum(c) / (|c| as real);
    var sq := Squares(c, mu);
    forall i | 0 <= i < |sq|
      ensures sq[i] >= 0.0
    {
      SquareNonNegative(c[i] - mu);
    }
    SumNonNegative(sq);
    Sum(Squares(c, mu)) / ((|c| - 1) as real)
  }

  /** `x.var(ddof=1, axis=0).sum()`. With a single row and at least one
      column numpy yields NaN, modelled as `None`. */
  function TotalVariance(x: Mat, d: nat): (tv: Option<real>)
    requires IsMatrix(x, |x|, d) && |x| >= 1
    ensures tv.None? <==> |x| == 1 && d > 0
    ensures tv.Some? ==> tv.value >= 0.0
  {
    if |x| == 1 && d > 0 then None
    else if d == 0 then Some(0.0)
    else Some(SumOfVariances(x, d, d))
  }

  /** Sum of the variances of the first `k` columns. */
  function SumOfVariances(x: Mat, d: nat, k: nat): (s: real)
    requires IsMatrix(x, |x|, d) && |x| >= 2 && k <= d
    ensures s >= 0.0
  {
    if k == 0 then 0.0 else SumOfVariances(x, d, k - 1) + SampleVariance(Column(x, k - 1))
  }

  lemma SquareNonNegative(t: real)
    ensures t * t >= 0.0
  {
    if t < 0.0 {
      assert t * t == (-t) * (-t);
    }
  }
}

=== FILE: outcomes.dfy ===
/** Failure-compatible wrappers shared by the whole model, plus the Python
    exception kinds the modelled code raises. */
module Outcomes {

  datatype Option<+T> = None | Some(value: T)

  /** The exceptions of the Python source, identified by class and the
      one datum (key, path, name) that its message carries. */
  datatype Error =
    | KeyError(key: string)
    | IOError(path: string)
    | RuntimeError(message: string)
    | NotImplementedError(message: string)
    | UnboundLocalError(name: string)
    | TypeError(message: string)
    | ValueError(message: string)
    | IndexError(message: string)

  datatype Result<+T> = Success(value: T) | Failure(error: Error) {

    predicate IsFailure() {
      Failure?
    }

    function PropagateFailure<U>(): Result<U>
      requires Failure?
    {
      Failure(error)
    }

    function Extract(): T
      requires Success?
    {
      value
    }
  }
}

=== FILE: paths.dfy ===
/** POSIX path handling used to locate PCA artefacts: `os.path.join` of two
    components, `os.path.splitext(p)[0]`, and `os.path.exists` against an
    abstract set of existing paths. */
module Paths {
  import opened Outcomes
  import opened PyValues

  /** `os.path.join(a, b)` on POSIX. */
  function Join(a: string, b: string): (r: string)
    ensures |b| > 0 && b[0] == '/' ==> r == b
    ensures (|b| == 0 || b[0] != '/') ==> r == a + (if a == "" || a[|a| - 1] == '/' then "" else "/") + b
  {
    if |b| > 0 && b[0] == '/' then b
    else if a == "" || a[|a| - 1] == '/' then a + b
    else a + "/" + b
  }

  /** The second part always ends the joined path. */
  lemma JoinEndsWith(a: string, b: string)
    ensures |b| <= |Join(a, b)| && Join(a, b)[|Join(a, b)| - |b|..] == b
  {
  }

  /** `s.rfind(c)`: the last index of `c` in `s`, or -1. */
  function RFind(s: string, c: char): (k: int)
    ensures -1 <= k < |s|
    ensures k >= 0 ==> s[k] == c
    ensures forall j :: k < j < |s| ==> s[j] != c
  {
    if |s| == 0 then -1
    else if s[|s| - 1] == c then |s| - 1
    else RFind(s[..|s| - 1], c)
  }

  /** True when some character of `s[from..to]` is not a dot. */
  predicate HasNonDot(s: string, from: int, to: int)
    requires 0 <= from <= to <= |s|
  {
    exists k :: from <= k < to && s[k] != '.'
  }

  /** `os.path.splitext(p)[0]`: the extension starts at the last dot of the
      final component, unless that component is only dots before it. */
  function StripExt(p: string): (r: string)
    ensures |r| <= |p| && r == p[..|r|]
    ensures RFind(p, '.') <= RFind(p, '/') ==> r == p
    ensures r != p ==>
      && |r| < |p| && p[|r|] == '.' && RFind(p, '/') < |r|
      && forall k :: |r| < k < |p| ==> p[k] != '.' && p[k] != '/'
  {
    var sep := RFind(p, '/');
    var dot := RFind(p, '.');
    if dot > sep && HasNonDot(p, sep + 1, dot) then p[..dot] else p
  }

  /** `os.path.splitext(pca_file)[0] + '.yaml'`: where the PCA settings are
      stored beside a PCA file. */
  function YamlBeside(pcaFile: string): string {
    StripExt(pcaFile) + ".yaml"
  }

  /** `os.path.exists(v)` given the set `fs` of existing paths; a value that
      is not a string (e.g. `None`) makes `os.stat` raise `TypeError`. An
      integer is a file descriptor to `os.stat`; descriptors are not part of
      this model, so it is refused like any other non-string. */
  function Exists(fs: set<string>, v: Value): (r: Result<bool>)
    ensures r.Success? <==> v.VStr?
    ensures r.Success? ==> (r.value <==> v.s in fs)
    ensures r.Failure? ==> r.error.TypeError?
  {
    if v.VStr? then Success(v.s in fs) else Failure(TypeError("stat: path should be string"))
  }

  /** Joining a plain file name (no slash) onto a directory puts that name
      after the last slash of the result. */
  lemma {:induction false} JoinNameIsLastComponent(dir: string, name: string)
    requires |name| > 0 && forall k :: 0 <= k < |name| ==> name[k] != '/'
    ensures var p := Join(dir, name);
      p == JoinPrefix(dir) + name && RFind(p, '/') < |JoinPrefix(dir)|
  {
    var p := Join(dir, name);
    var pre := JoinPrefix(dir);
    assert p == pre + name;
    forall k | |pre| <= k < |p|
      ensures p[k] != '/'
    {
      assert p[k] == name[k - |pre|];
    }
  }

  /** What `Join(dir, name)` puts in front of a relative `name`. */
  function JoinPrefix(dir: string): string {
    dir + (if dir == "" || dir[|dir| - 1] == '/' then "" else "/")
  }

  /** A final component with a non-dot character before its last dot loses
      exactly the part from that dot on. */
  lemma StripExtAt(p: string, i: nat, k: nat)
    requires RFind(p, '/') < i < k < |p| && p[i] != '.' && p[k] == '.'
    requires forall j :: k < j < |p| ==> p[j] != '.'
    ensures StripExt(p) == p[..k]
  {
  }

  /** The PCA settings file of `dir/pca.h5` is `dir/pca.yaml`. */
  lemma YamlBesideDefaultPca(dir: string)
    ensures YamlBeside(Join(dir, "pca.h5")) == Join(dir, "pca.yaml")
  {
    var pre := JoinPrefix(dir);
    var p := Join(dir, "pca.h5");
    JoinNameIsLastComponent(dir, "pca.h5");
    var n := |p|;
    var m := |pre|;
    assert n == m + 6;
    assert p[m] == 'p' && p[m + 3] == '.' && p[m + 4] == 'h' && p[m + 5] == '5';
    StripExtAt(p, m, m + 3);
    assert p[..m + 3] == pre + "pca";
    assert Join(dir, "pca.yaml") == pre + "pca.yaml";
  }
}

=== FILE: pca_data.dfy ===
/** `helpers/data.py`: resolving the PCA and PC-score files for the
    changepoint step and packing the parameter dictionaries read from the
    run configuration and from the `pca.yaml` written next to `pca.h5`.
    File existence is a set of paths; a yaml file on disk is a dictionary
    keyed by its path. */
module PcaData {
  import opened Outcomes
  import opened PyValues
  import opened Paths

  /** The changepoint parameters (lines 81-87): five values of the run
      configuration, renamed, read in the order the dict literal lists
      them, so the first absent one raises `KeyError`. */
  function ChangepointParams(config: Dict): (r: Result<Dict>)
    ensures r.Success? <==> "klags" in config && "sigma" in config && "threshold" in config && "neighbors" in config && "dims" in config
    ensures "klags" !in config ==> r == Failure(KeyError("klags"))
    ensures "klags" in config && "sigma" !in config ==> r == Failure(KeyError("sigma"))
    ensures "klags" in config && "sigma" in config && "threshold" !in config ==> r == Failure(KeyError("threshold"))
    ensures "klags" in config && "sigma" in config && "threshold" in config && "neighbors" !in config ==>
      r == Failure(KeyError("neighbors"))
    ensures "klags" in config && "sigma" in config && "threshold" in config && "neighbors" in config && "dims" !in config ==>
      r == Failure(KeyError("dims"))
    ensures r.Success? ==>
      && r.value.Keys == {"k", "sigma", "peak_height", "peak_neighbors", "rps"}
      && r.value["k"] == config["klags"] && r.value["sigma"] == config["sigma"]
      && r.value["peak_height"] == config["threshold"] && r.value["peak_neighbors"] == config["neighbors"]
      && r.value["rps"] == config["dims"]
  {
    var k :- Index(config, "klags");
    var sigma :- Index(config, "sigma");
    var peakHeight :- Index(config, "threshold");
    var peakNeighbors :- Index(config, "neighbors");
    var rps :- Index(config, "dims");
    Success(map["k" := k, "sigma" := sigma, "peak_height" := peakHeight, "peak_neighbors" := peakNeighbors, "rps" := rps])
  }

  /** The mask parameters of missing-data mode (lines 70-73): two values
      copied from the yaml under their own names. */
  function MissingDataMaskParams(y: Dict): (r: Result<Dict>)
    ensures r.Success? <==> "mask_height_threshold" in y && "mask_threshold" in y
    ensures "mask_height_threshold" !in y ==> r == Failure(KeyError("mask_height_threshold"))
    ensures "mask_height_threshold" in y && "mask_threshold" !in y ==> r == Failure(KeyError("mask_threshold"))
    ensures r.Success? ==>
      && r.value.Keys == {"mask_height_threshold", "mask_threshold"}
      && forall k :: k in r.value ==> k in y && r.value[k] == y[k]
  {
    var heightThreshold :- Index(y, "mask_height_threshold");
    var threshold :- Index(y, "mask_threshold");
    Success(map["mask_height_threshold" := heightThreshold, "mask_threshold" := threshold])
  }

  /** The mask parameters of `get_pca_yaml_data` (lines 131-136): four
      values copied from the yaml under their own names. */
  function MaskParams(y: Dict): (r: Result<Dict>)
    ensures r.Success? <==> "mask_height_threshold" in y && "mask_threshold" in y && "min_height" in y && "max_height" in y
    ensures "mask_height_threshold" !in y ==> r == Failure(KeyError("mask_height_threshold"))
    ensures "mask_height_threshold" in y && "mask_threshold" !in y ==> r == Failure(KeyError("mask_threshold"))
    ensures "mask_height_threshold" in y && "mask_threshold" in y && "min_height" !in y ==> r == Failure(KeyError("min_height"))
    ensures "mask_height_threshold" in y && "mask_threshold" in y && "min_height" in y && "max_height" !in y ==>
      r == Failure(KeyError("max_height"))
    ensures r.Success? ==>
      && r.value.Keys == {"mask_height_threshold", "mask_threshold", "min_height", "max_height"}
      && forall k :: k in r.value ==> k in y && r.value[k] == y[k]
  {
    var heightThreshold :- Index(y, "mask_height_threshold");
    var threshold :- Index(y, "mask_threshold");
    var minHeight :- Index(y, "min_height");
    var maxHeight :- Index(y, "max_height");
    Success(map["mask_height_threshold" := heightThreshold, "mask_threshold" := threshold,
                "min_height" := minHeight, "max_height" := maxHeight])
  }

  datatype PcaPaths = PcaPaths(config: Dict, pcaFile: Value, scoresFile: Value)

  /** `get_pca_paths` (lines 26-40). */
  function GetPcaPaths(config: Dict, outputDir: string, fs: set<string>): (r: Result<PcaPaths>)
    ensures r.Success? ==> r.value.config.Keys == config.Keys + {"pca_file", "pca_file_scores"}
    ensures r.Success? ==> r.value.config["pca_file"] == r.value.pcaFile
    ensures r.Success? ==> r.value.config["pca_file_scores"] == r.value.scoresFile
    ensures r.Success? ==> forall k :: k in config && k != "pca_file" && k != "pca_file_scores" ==> r.value.config[k] == config[k]
    ensures r.Success? ==> r.value.pcaFile.VStr? && r.value.pcaFile.s in fs
    ensures Get(config, "pca_file", VNone) != VNone && r.Success? ==> r.value.pcaFile == config["pca_file"]
    ensures Get(config, "pca_file", VNone) == VNone ==>
      if Join(outputDir, "pca.h5") in fs then r.Success? && r.value.pcaFile == VStr(Join(outputDir, "pca.h5"))
      else r == Failure(IOError("Could not find PCA components file " + Join(outputDir, "pca.h5")))
    ensures r.Success? ==>
      r.value.scoresFile == (if "pca_file_scores" in config then config["pca_file_scores"] else VStr(Join(outputDir, "pca_scores.h5")))
    ensures Get(config, "pca_file", VNone).VStr? ==> (r.Success? <==> config["pca_file"].s in fs)
    ensures Get(config, "pca_file", VNone).VStr? && config["pca_file"].s !in fs ==>
      r == Failure(IOError("Could not find PCA components file " + config["pca_file"].s))
    ensures Get(config, "pca_file", VNone) != VNone && !Get(config, "pca_file", VNone).VStr? ==>
      r.Failure? && r.error.TypeError?
    ensures r.Failure? ==> r.error.IOError? || r.error.TypeError?
  {
    var pcaFile := if Get(config, "pca_file", VNone) != VNone then config["pca_file"] else VStr(Join(outputDir, "pca.h5"));
    var config1 := if Get(config, "pca_file", VNone) != VNone then config else config["pca_file" := pcaFile];
    var found :- Exists(fs, pcaFile);
    if !found then Failure(IOError("Could not find PCA components file " + pcaFile.s))
    else
      var scores := Get(config1, "pca_file_scores", VStr(Join(outputDir, "pca_scores.h5")));
      Success(PcaPaths(config1["pca_file_scores" := scores], pcaFile, scores))
  }

  /** What `load_pcs_for_cp` hands to the changepoint step (the components
      themselves are read from the h5 file and are not modelled). */
  datatype CpInputs = CpInputs(changepointParams: Dict, missingData: Value, maskParams: Option<Dict>)

  const NeedScoresFileMessage := "Need PCA scores to impute missing data, run apply pca first"

  /** `load_pcs_for_cp` (lines 58-90). */
  function LoadPcsForCp(pcaFile: string, config: Dict, fs: set<string>, yamls: map<string, Dict>): (r: Result<CpInputs>)
    ensures pcaFile !in fs ==> r == Failure(IOError(pcaFile))
    ensures pcaFile in fs && "pca_path" !in config ==> r == Failure(KeyError("pca_path"))
    ensures YamlBeside(pcaFile) !in yamls ==> r.Failure?
    ensures r.Success? ==> YamlBeside(pcaFile) in yamls
    ensures r.Success? ==> r.value.missingData == Get(yamls[YamlBeside(pcaFile)], "missing_data", VBool(false))
    ensures r.Success? ==> (r.value.maskParams.Some? <==> Truthy(r.value.missingData))
    ensures r.Success? && r.value.maskParams.Some? ==>
      MissingDataMaskParams(yamls[YamlBeside(pcaFile)]) == Success(r.value.maskParams.value)
    ensures r.Success? && Truthy(r.value.missingData) ==>
      "pca_file_scores" in config && config["pca_file_scores"].VStr? && config["pca_file_scores"].s in fs
    ensures r.Success? ==> ChangepointParams(config) == Success(r.value.changepointParams)
    ensures pcaFile in fs && "pca_path" in config && YamlBeside(pcaFile) in yamls ==>
      var y := yamls[YamlBeside(pcaFile)];
      var md := Truthy(Get(y, "missing_data", VBool(false)));
      var scoresOk := "pca_file_scores" in config && config["pca_file_scores"].VStr? && config["pca_file_scores"].s in fs;
      && (r.Success? <==> ChangepointParams(config).Success? && (md ==> MissingDataMaskParams(y).Success? && scoresOk))
      && (md && MissingDataMaskParams(y).Failure? ==> r == Failure(MissingDataMaskParams(y).error))
      && (md && MissingDataMaskParams(y).Success? && "pca_file_scores" !in config ==> r == Failure(KeyError("pca_file_scores")))
      && (md && MissingDataMaskParams(y).Success? && "pca_file_scores" in config && !config["pca_file_scores"].VStr? ==>
            r.Failure? && r.error.TypeError?)
      && ((md && MissingDataMaskParams(y).Success? && "pca_file_scores" in config && config["pca_file_scores"].VStr? &&
             config["pca_file_scores"].s !in fs) ==> r == Failure(RuntimeError(NeedScoresFileMessage)))
      && ((md ==> MissingDataMaskParams(y).Success? && scoresOk) && ChangepointParams(config).Failure? ==>
            r == Failure(ChangepointParams(config).error))
  {
    if pcaFile !in fs then Failure(IOError(pcaFile))
    else if "pca_path" !in config then Failure(KeyError("pca_path"))
    else
      var pcaYaml := YamlBeside(pcaFile);
      if pcaYaml in yamls then
        var pcaConfig := yamls[pcaYaml];
        var missingData := Get(pcaConfig, "missing_data", VBool(false));
        var maskParams :- if Truthy(missingData) then
            var m :- MissingDataMaskParams(pcaConfig); Success(Some(m))
          else Success(None);
        var _ :- if Truthy(missingData) then
            var scoresPath :- Index(config, "pca_file_scores");
            var found :- Exists(fs, scoresPath);
            if !found then Failure(RuntimeError(NeedScoresFileMessage)) else Success(true)
          else Success(true);
        var changepointParams :- ChangepointParams(config);
        Success(CpInputs(changepointParams, missingData, maskParams))
      else
        var _ :- ChangepointParams(config);
        Failure(UnboundLocalError("missing_data"))
  }

  /** In missing-data mode a scores path that names no file is reported
      before the changepoint parameters are packed. */
  lemma MissingScoresFileRejected(pcaFile: string, config: Dict, fs: set<string>, yamls: map<string, Dict>)
    requires pcaFile in fs && "pca_path" in config && YamlBeside(pcaFile) in yamls
    requires Truthy(Get(yamls[YamlBeside(pcaFile)], "missing_data", VBool(false)))
    requires MissingDataMaskParams(yamls[YamlBeside(pcaFile)]).Success?
    requires "pca_file_scores" in config && config["pca_file_scores"].VStr? && config["pca_file_scores"].s !in fs
    ensures LoadPcsForCp(pcaFile, config, fs, yamls) == Failure(RuntimeError(NeedScoresFileMessage))
  {
  }

  /** Without the yaml the packed parameters are discarded and the return
      statement fails on the unbound `missing_data`. */
  lemma NoYamlNeverLoads(pcaFile: string, config: Dict, fs: set<string>, yamls: map<string, Dict>)
    requires pcaFile in fs && "pca_path" in config && YamlBeside(pcaFile) !in yamls
    requires ChangepointParams(config).Success?
    ensures LoadPcsForCp(pcaFile, config, fs, yamls) == Failure(UnboundLocalError("missing_data"))
  {
  }

  /** Filtering, masking and mode settings read from `pca.yaml`. */
  datatype YamlData = YamlData(useFft: Value, cleanParams: Dict, maskParams: Dict, missingData: Value)

  /** `select_strel(shape, tuple(size))` with both read from the yaml. */
  function TailFilter(y: Dict): (r: Result<Value>)
    ensures "tailfilter_shape" !in y ==> r == Failure(KeyError("tailfilter_shape"))
    ensures "tailfilter_shape" in y && "tailfilter_size" !in y ==> r == Failure(KeyError("tailfilter_size"))
    ensures r.Success? <==> "tailfilter_shape" in y && "tailfilter_size" in y && ToTuple(y["tailfilter_size"]).Success?
    ensures r.Success? ==> r.value == VStrel([y["tailfilter_shape"], ToTuple(y["tailfilter_size"]).value])
  {
    var shape :- Index(y, "tailfilter_shape");
    var sizeValue :- Index(y, "tailfilter_size");
    var size :- ToTuple(sizeValue);
    Success(VStrel([shape, size]))
  }

  /** The yaml keys the filter parameters read, in order. */
  const CleanKeys := ["gaussfilter_space", "gaussfilter_time", "medfilter_time", "medfilter_space"]

  /** The filter parameters (lines 122-128): the four widths copied from
      the yaml under their own names, in the order the literal reads them,
      plus the structuring element. */
  function CleanParams(y: Dict, tailfilter: Value): (r: Result<Dict>)
    ensures r.Success? <==> "gaussfilter_space" in y && "gaussfilter_time" in y && "medfilter_time" in y && "medfilter_space" in y
    ensures r.Success? ==>
      && r.value.Keys == {"gaussfilter_space", "gaussfilter_time", "tailfilter", "medfilter_time", "medfilter_space"}
      && r.value["tailfilter"] == tailfilter
      && forall k :: k in r.value && k != "tailfilter" ==> k in y && r.value[k] == y[k]
    ensures r.Failure? <==> FirstMissingAt(y, CleanKeys) < |CleanKeys|
    ensures r.Failure? ==> r == Failure(KeyError(CleanKeys[FirstMissingAt(y, CleanKeys)]))
  {
    assert CleanKeys[0] == "gaussfilter_space" && CleanKeys[1] == "gaussfilter_time";
    assert CleanKeys[2] == "medfilter_time" && CleanKeys[3] == "medfilter_space";
    var gaussSpace :- Index(y, "gaussfilter_space");
    var gaussTime :- Index(y, "gaussfilter_time");
    var medTime :- Index(y, "medfilter_time");
    var medSpace :- Index(y, "medfilter_space");
    Success(map["gaussfilter_space" := gaussSpace, "gaussfilter_time" := gaussTime, "tailfilter" := tailfilter,
                "medfilter_time" := medTime, "medfilter_space" := medSpace])
  }

  /** `get_pca_yaml_data` (lines 106-140). */
  function GetPcaYamlData(pcaYaml: string, yamls: map<string, Dict>): (r: Result<YamlData>)
    ensures pcaYaml !in yamls ==> r == Failure(IOError("Could not find " + pcaYaml))
    ensures pcaYaml in yamls ==>
      (r.Success? <==>
         && TailFilter(yamls[pcaYaml]).Success?
         && CleanParams(yamls[pcaYaml], TailFilter(yamls[pcaYaml]).value).Success?
         && MaskParams(yamls[pcaYaml]).Success?)
    ensures r.Success? ==> pcaYaml in yamls
    ensures r.Success? ==>
      && r.value.useFft == Get(yamls[pcaYaml], "use_fft", VBool(false))
      && r.value.missingData == Get(yamls[pcaYaml], "missing_data", VBool(false))
      && MaskParams(yamls[pcaYaml]) == Success(r.value.maskParams)
      && TailFilter(yamls[pcaYaml]).Success?
      && CleanParams(yamls[pcaYaml], TailFilter(yamls[pcaYaml]).value) == Success(r.value.cleanParams)
  {
    if pcaYaml !in yamls then Failure(IOError("Could not find " + pcaYaml))
    else
      var pcaConfig := yamls[pcaYaml];
      var useFft := Get(pcaConfig, "use_fft", VBool(false));
      var missingData := Get(pcaConfig, "missing_data", VBool(false));
      var tailfilter :- TailFilter(pcaConfig);
      var cleanParams :- CleanParams(pcaConfig, tailfilter);
      var maskParams :- MaskParams(pcaConfig);
      Success(YamlData(useFft, cleanParams, maskParams, missingData))
  }

  /** The yaml consulted for a default PCA file is `pca.yaml` in the same
      directory. */
  lemma DefaultPcaYaml(config: Dict, outputDir: string, fs: set<string>)
    requires Get(config, "pca_file", VNone) == VNone && Join(outputDir, "pca.h5") in fs
    ensures var r := GetPcaPaths(config, outputDir, fs);
      r.Success? && r.value.pcaFile.VStr? && YamlBeside(r.value.pcaFile.s) == Join(outputDir, "pca.yaml")
  {
    YamlBesideDefaultPca(outputDir);
  }
}

=== FILE: pca_wrappers.dfy ===
/** The decision logic of `helpers/wrappers.py`: where sessions are
    searched for, which option combinations are refused before the
    overwrite prompt and the yaml write, which PCA file the apply step loads, how the stacked training
    frames are prepared, and the block durations summarised after
    changepoint detection. */
module PcaWrappers {
  import opened Outcomes
  import opened PyValues
  import opened Paths
  import opened Matrix
  import opened Masking
  import opened PcaData

  const AggregateDir := "aggregate_results/"

  /** The directory `load_and_check_data` hands to the session search
      (lines 53-61); the search itself is not part of this model. */
  function SearchDirectory(funcName: string, inputDir: string, fs: set<string>): (dir: string)
    ensures Contains(funcName, "changepoints") && Join(inputDir, AggregateDir) in fs ==> dir == Join(inputDir, AggregateDir)
    ensures !(Contains(funcName, "changepoints") && Join(inputDir, AggregateDir) in fs) ==> dir == inputDir
  {
    if Contains(funcName, "changepoints") then
      if Join(inputDir, AggregateDir) in fs then Join(inputDir, AggregateDir) else inputDir
    else inputDir
  }

  /** The train and apply wrappers always search the input directory; the
      changepoint wrapper prefers `aggregate_results/` when it exists. */
  lemma SearchDirectoryByWrapper(inputDir: string, fs: set<string>)
    ensures SearchDirectory("train_pca_wrapper", inputDir, fs) == inputDir
    ensures SearchDirectory("apply_pca_wrapper", inputDir, fs) == inputDir
    ensures Join(inputDir, AggregateDir) in fs ==>
      SearchDirectory("compute_changepoints_wrapper", inputDir, fs) == Join(inputDir, AggregateDir)
  {
    NoChangepoints("train_pca_wrapper");
    NoChangepoints("apply_pca_wrapper");
    assert OccursAt("compute_changepoints_wrapper", "changepoints", 8);
  }

  /** A name without the letter 'g' cannot contain "changepoints". */
  lemma NoChangepoints(name: string)
    requires forall k :: 0 <= k < |name| ==> name[k] != 'g'
    ensures !Contains(name, "changepoints")
  {
    forall i | 0 <= i <= |name|
      ensures !OccursAt(name, "changepoints", i)
    {
      if i + 12 <= |name| {
        assert name[i..i + 12][4] == name[i + 4] != "changepoints"[4];
      }
    }
  }

  /** The configuration after resolution and the PCA file to load. */
  datatype ApplySetup = ApplySetup(config: Dict, pcaFile: string)

  /** The PCA file the apply step loads (lines 268-283): a `pca_file` that
      is `None` or names no existing file is replaced by `pca.h5` in the
      output directory, and the configuration records the choice. */
  function ResolveApplyPcaFile(config: Dict, outputDir: string, fs: set<string>): (r: Result<ApplySetup>)
    ensures "pca_file" !in config ==> r == Failure(KeyError("pca_file"))
    ensures r.Success? ==> r.value.pcaFile in fs && "pca_path" in config
    ensures r.Success? ==> r.value.config.Keys == config.Keys
    ensures r.Success? ==> r.value.config["pca_file"] == VStr(r.value.pcaFile)
    ensures r.Success? ==> forall k :: k in config && k != "pca_file" ==> r.value.config[k] == config[k]
    ensures "pca_file" in config && config["pca_file"].VStr? && config["pca_file"].s in fs && "pca_path" in config ==>
      r == Success(ApplySetup(config, config["pca_file"].s))
    ensures "pca_file" in config && (config["pca_file"] == VNone || (config["pca_file"].VStr? && config["pca_file"].s !in fs)) ==>
      var default := Join(outputDir, "pca.h5");
      if default !in fs then r == Failure(IOError("Could not find PCA components file " + default))
      else (r.Success? <==> "pca_path" in config)
    ensures "pca_file" in config && config["pca_file"] != VNone && !config["pca_file"].VStr? ==> r.Failure? && r.error.TypeError?
  {
    var given :- Index(config, "pca_file");
    var default := Join(outputDir, "pca.h5");
    var resolved :- if given == VNone then Success(ApplySetup(config["pca_file" := VStr(default)], default))
      else
        var found :- Exists(fs, given);
        if !found then Success(ApplySetup(config["pca_file" := VStr(default)], default))
        else Success(ApplySetup(config, given.s));
    if resolved.pcaFile !in fs then Failure(IOError("Could not find PCA components file " + resolved.pcaFile))
    else if "pca_path" !in resolved.config then Failure(KeyError("pca_path"))
    else Success(resolved)
  }

  /** The apply wrapper's view of its inputs: the resolved configuration,
      the PCA file, and the settings read from the yaml beside it. The
      returned configuration also records the scores file the run writes
      (line 342). */
  datatype ApplyRun = ApplyRun(config: Dict, pcaFile: string, yaml: YamlData)

  function ApplyPcaInputs(config: Dict, outputDir: string, outputFile: string, fs: set<string>,
                          yamls: map<string, Dict>): (r: Result<ApplyRun>)
    ensures r.Success? ==> r.value.pcaFile in fs
    ensures r.Success? ==> "pca_file" in r.value.config && r.value.config["pca_file"] == VStr(r.value.pcaFile)
    ensures r.Success? ==>
      "pca_file_scores" in r.value.config && r.value.config["pca_file_scores"] == VStr(Join(outputDir, outputFile) + ".h5")
    ensures r.Success? ==> GetPcaYamlData(YamlBeside(r.value.pcaFile), yamls) == Success(r.value.yaml)
    ensures var setup := ResolveApplyPcaFile(config, outputDir, fs);
      && (setup.Failure? ==> r == Failure(setup.error))
      && (setup.Success? ==>
            var yaml := GetPcaYamlData(YamlBeside(setup.value.pcaFile), yamls);
            && (r.Success? <==> yaml.Success?)
            && (yaml.Failure? ==> r == Failure(yaml.error))
            && (r.Success? ==> r.value.pcaFile == setup.value.pcaFile))
  {
    var setup := ResolveApplyPcaFile(config, outputDir, fs);
    if setup.Failure? then Failure(setup.error)
    else
      var yaml := GetPcaYamlData(YamlBeside(setup.value.pcaFile), yamls);
      if yaml.Failure? then Failure(yaml.error)
      else
        var scoresFile := VStr(Join(outputDir, outputFile) + ".h5");
        Success(ApplyRun(setup.value.config["pca_file_scores" := scoresFile], setup.value.pcaFile, yaml.value))
  }

  /** Handing the configuration returned by the apply wrapper to the
      changepoint wrapper: it loads the same PCA file and the scores file
      the apply run wrote. */
  lemma ApplyThenChangepointPaths(config: Dict, outputDir: string, outputFile: string, fs: set<string>, yamls: map<string, Dict>)
    requires ApplyPcaInputs(config, outputDir, outputFile, fs, yamls).Success?
    ensures var run := ApplyPcaInputs(config, outputDir, outputFile, fs, yamls).value;
      var paths := GetPcaPaths(run.config, outputDir, fs);
      && paths.Success?
      && paths.value.pcaFile == VStr(run.pcaFile)
      && paths.value.scoresFile == VStr(Join(outputDir, outputFile) + ".h5")
  {
  }

  const FftMissingMessage := "FFT and missing data not implemented yet"

  /** What the training wrapper does to the outside world before the frames
      are read: ask before overwriting, then write the run configuration. */
  datatype Effect = Prompt(path: string) | WriteYaml(path: string, contents: Dict)

  datatype TrainStart =
    | Declined(config: Dict)
    | Proceed(params: Dict, cleanParams: Dict, saveFile: string)

  /** `params` as the run records it: the configuration itself (the two
      names alias one dict) with the start time and input list added. */
  function RunParams(config: Dict, h5s: seq<string>, startTime: string): (p: Dict)
    ensures p.Keys == config.Keys + {"start_time", "inputs"}
    ensures p["start_time"] == VStr(startTime) && p["inputs"] == StrList(h5s)
    ensures forall k :: k in config && k != "start_time" && k != "inputs" ==> p[k] == config[k]
  {
    config["start_time" := VStr(startTime)]["inputs" := StrList(h5s)]
  }

  /** The keys the training wrapper's `clean_params` literal reads, in order. */
  const TrainCleanKeys := ["gaussfilter_space", "gaussfilter_time", "tailfilter_shape", "tailfilter_size",
                           "medfilter_time", "medfilter_space"]

  /** `clean_params` of the training wrapper (lines 122-128); here the
      structuring element is built from the single tuple `(shape, size)`. */
  function TrainCleanParams(c: Dict): (r: Result<Dict>)
    ensures r.Success? <==>
      "gaussfilter_space" in c && "gaussfilter_time" in c && "tailfilter_shape" in c && "tailfilter_size" in c
      && "medfilter_time" in c && "medfilter_space" in c
    ensures r.Success? ==>
      && r.value.Keys == {"gaussfilter_space", "gaussfilter_time", "tailfilter", "medfilter_time", "medfilter_space"}
      && r.value["tailfilter"] == VStrel([VTuple([c["tailfilter_shape"], c["tailfilter_size"]])])
      && forall k :: k in r.value && k != "tailfilter" ==> k in c && r.value[k] == c[k]
    ensures r.Failure? <==> FirstMissingAt(c, TrainCleanKeys) < |TrainCleanKeys|
    ensures r.Failure? ==> r == Failure(KeyError(TrainCleanKeys[FirstMissingAt(c, TrainCleanKeys)]))
  {
    assert TrainCleanKeys[0] == "gaussfilter_space" && TrainCleanKeys[1] == "gaussfilter_time";
    assert TrainCleanKeys[2] == "tailfilter_shape" && TrainCleanKeys[3] == "tailfilter_size";
    assert TrainCleanKeys[4] == "medfilter_time" && TrainCleanKeys[5] == "medfilter_space";
    var gaussSpace :- Index(c, "gaussfilter_space");
    var gaussTime :- Index(c, "gaussfilter_time");
    var shape :- Index(c, "tailfilter_shape");
    var size :- Index(c, "tailfilter_size");
    var medTime :- Index(c, "medfilter_time");
    var medSpace :- Index(c, "medfilter_space");
    Success(map["gaussfilter_space" := gaussSpace, "gaussfilter_time" := gaussTime,
                "tailfilter" := VStrel([VTuple([shape, size])]),
                "medfilter_time" := medTime, "medfilter_space" := medSpace])
  }

  /** `config_data['missing_data'] and config_data['use_fft']`, with
      Python's short circuit: `use_fft` is only read when missing data is on. */
  function FftWithMissingData(config: Dict): (r: Result<bool>)
    ensures "missing_data" !in config ==> r == Failure(KeyError("missing_data"))
    ensures "missing_data" in config && !Truthy(config["missing_data"]) ==> r == Success(false)
    ensures "missing_data" in config && Truthy(config["missing_data"]) ==>
      r == (if "use_fft" in config then Success(Truthy(config["use_fft"])) else Failure(KeyError("use_fft")))
  {
    var missingData :- Index(config, "missing_data");
    if !Truthy(missingData) then Success(false)
    else
      var useFft :- Index(config, "use_fft");
      Success(Truthy(useFft))
  }

  /** The training wrapper up to the point where frames are read (lines
      96-128), with the effects it has on the way: the overwrite prompt and
      the yaml write. `answer` is what the user types at the prompt. The
      directory creation and session search of the decorator (lines 49-61)
      come before this and are not modelled. */
  function TrainPcaStart(config: Dict, h5s: seq<string>, outputDir: string, outputFile: string, fs: set<string>,
                         startTime: string, answer: string): (r: (Result<TrainStart>, seq<Effect>))
    ensures FftWithMissingData(config).Failure? ==> r == (Failure(FftWithMissingData(config).error), [])
    ensures FftWithMissingData(config) == Success(true) ==> r == (Failure(NotImplementedError(FftMissingMessage)), [])
    ensures FftWithMissingData(config) == Success(false) ==>
      var params := RunParams(config, h5s, startTime);
      var saveFile := Join(outputDir, outputFile);
      if saveFile + ".h5" in fs && Lower(answer) != "y" then r == (Success(Declined(params)), [Prompt(saveFile + ".h5")])
      else
        && r.1 == (if saveFile + ".h5" in fs then [Prompt(saveFile + ".h5")] else []) + [WriteYaml(saveFile + ".yaml", params)]
        && (r.0.Success? <==> TrainCleanParams(params).Success?)
        && (r.0.Success? ==> r.0 == Success(Proceed(params, TrainCleanParams(params).value, saveFile)))
  {
    var fftCheck := FftWithMissingData(config);
    if fftCheck.Failure? then (Failure(fftCheck.error), [])
    else if fftCheck.value then (Failure(NotImplementedError(FftMissingMessage)), [])
    else
      var params := RunParams(config, h5s, startTime);
      var saveFile := Join(outputDir, outputFile);
      var prompt := if saveFile + ".h5" in fs then [Prompt(saveFile + ".h5")] else [];
      if saveFile + ".h5" in fs && Lower(answer) != "y" then (Success(Declined(params)), prompt)
      else
        var effects := prompt + [WriteYaml(saveFile + ".yaml", params)];
        var clean := TrainCleanParams(params);
        if clean.Failure? then (Failure(clean.error), effects)
        else (Success(Proceed(params, clean.value, saveFile)), effects)
  }

  /** FFT together with missing data is refused exactly when both options
      are on, and then no prompt was shown and no yaml written. */
  lemma FftRejectedBeforePrompt(config: Dict, h5s: seq<string>, outputDir: string, outputFile: string, fs: set<string>,
                                startTime: string, answer: string)
    requires "missing_data" in config && "use_fft" in config
    ensures var r := TrainPcaStart(config, h5s, outputDir, outputFile, fs, startTime, answer);
      && (r.0 == Failure(NotImplementedError(FftMissingMessage)) <==> Truthy(config["missing_data"]) && Truthy(config["use_fft"]))
      && (r.0 == Failure(NotImplementedError(FftMissingMessage)) ==> r.1 == [])
  {
  }

  /** A numeric configuration entry. */
  function Number(config: Dict, key: string): (r: Result<real>)
    ensures key !in config ==> r == Failure(KeyError(key))
    ensures r.Success? <==> key in config && IsNumber(config[key])
    ensures r.Success? ==> r.value == NumberOf(config[key])
  {
    var v :- Index(config, key);
    if IsNumber(v) then Success(NumberOf(v)) else Failure(TypeError("'<' not supported between instances"))
  }

  /** Lines 138-139: stacked frames outside [min_height, max_height] are
      set to 0, the rule used for reconstructions. */
  function PrepareTrainingFrames(stacked: Mat, config: Dict): (r: Result<Mat>)
    ensures r.Success? <==> Number(config, "min_height").Success? && Number(config, "max_height").Success?
    ensures r.Success? ==> SameShape(r.value, stacked)
    ensures r.Success? ==>
      var lo := Number(config, "min_height").value;
      var hi := Number(config, "max_height").value;
      forall i, j :: 0 <= i < |stacked| && 0 <= j < |stacked[i]| ==>
        && (lo <= stacked[i][j] <= hi ==> r.value[i][j] == stacked[i][j])
        && (stacked[i][j] < lo || stacked[i][j] > hi ==> r.value[i][j] == 0.0)
  {
    var lo :- Number(config, "min_height");
    var hi :- Number(config, "max_height");
    Success(ZeroMatrix(stacked, lo, hi))
  }

  /** Lines 162-171: in missing-data mode the invalid-pixel mask is built
      from the mask dataset and the already height-zeroed frames. */
  function TrainingMask(rawMask: Mat, zeroed: Mat, config: Dict): (r: Result<Option<BoolMat>>)
    requires SameShape(rawMask, zeroed)
    ensures "missing_data" !in config ==> r == Failure(KeyError("missing_data"))
    ensures "missing_data" in config && !Truthy(config["missing_data"]) ==> r == Success(None)
    ensures "missing_data" in config && Truthy(config["missing_data"]) ==>
      && (r.Success? <==> Number(config, "mask_threshold").Success? && Number(config, "mask_height_threshold").Success?)
      && (r.Success? ==> r.value.Some?)
      && (Number(config, "mask_threshold").Failure? ==> r == Failure(Number(config, "mask_threshold").error))
      && (Number(config, "mask_threshold").Success? && Number(config, "mask_height_threshold").Failure? ==>
            r == Failure(Number(config, "mask_height_threshold").error))
    ensures r.Success? && r.value.Some? ==>
      && Number(config, "mask_threshold").Success? && Number(config, "mask_height_threshold").Success?
      && SameShape(r.value.value, zeroed)
      && forall i, j :: 0 <= i < |zeroed| && 0 <= j < |zeroed[i]| ==>
           (r.value.value[i][j] <==> rawMask[i][j] < Number(config, "mask_threshold").value
                                     && zeroed[i][j] > Number(config, "mask_height_threshold").value)
  {
    var missingData :- Index(config, "missing_data");
    if !Truthy(missingData) then Success(None)
    else
      var threshold :- Number(config, "mask_threshold");
      var heightThreshold :- Number(config, "mask_height_threshold");
      Success(Some(BuildMask(rawMask, zeroed, threshold, heightThreshold)))
  }

  /** With a non-negative height threshold, a pixel the height zeroing set
      to 0 is never marked invalid. */
  lemma ZeroedPixelsNeverMasked(stacked: Mat, rawMask: Mat, config: Dict, i: nat, j: nat)
    requires PrepareTrainingFrames(stacked, config).Success?
    requires SameShape(rawMask, stacked)
    requires i < |stacked| && j < |stacked[i]|
    requires var lo := Number(config, "min_height").value;
      var hi := Number(config, "max_height").value;
      stacked[i][j] < lo || stacked[i][j] > hi
    requires Number(config, "mask_height_threshold").Success? && Number(config, "mask_height_threshold").value >= 0.0
    ensures var zeroed := PrepareTrainingFrames(stacked, config).value;
      var m := TrainingMask(rawMask, zeroed, config);
      m.Success? && m.value.Some? ==> !m.value.value[i][j]
  {
  }

  /** `np.diff` of one session's changepoint times. */
  function Diff(v: Vec): (d: Vec)
    ensures |d| == if |v| == 0 then 0 else |v| - 1
    ensures forall k :: 0 <= k < |d| ==> d[k] == v[k + 1] - v[k]
  {
    if |v| == 0 then [] else seq(|v| - 1, k requires 0 <= k < |v| - 1 => v[k + 1] - v[k])
  }

  /** The differences of a session, summed, are its span. */
  lemma {:induction false} DiffTelescopes(v: Vec)
    requires |v| > 0
    ensures Sum(Diff(v)) == v[|v| - 1] - v[0]
    decreases |v|
  {
    if |v| > 1 {
      var w := v[..|v| - 1];
      var d, dw := Diff(v), Diff(w);
      DiffTelescopes(w);
      assert d[..|d| - 1] == dw;
      assert Sum(d) == Sum(dw) + d[|d| - 1];
      assert d[|d| - 1] == v[|v| - 1] - w[|w| - 1];
    }
  }

  /** One duration fewer than changepoints, per non-empty session. */
  function DurationCount(cps: seq<Vec>): nat
    decreases |cps|
  {
    if |cps| == 0 then 0 else (if |cps[0]| == 0 then 0 else |cps[0]| - 1) + DurationCount(cps[1..])
  }

  function ConcatDiffs(cps: seq<Vec>): (r: Vec)
    ensures |r| == DurationCount(cps)
    decreases |cps|
  {
    if |cps| == 0 then [] else Diff(cps[0]) + ConcatDiffs(cps[1..])
  }

  /** Line 428: the block durations of all sessions, session after session;
      concatenating no arrays at all is an error. */
  function BlockDurations(cps: seq<Vec>): (r: Result<Vec>)
    ensures r.Failure? <==> |cps| == 0
    ensures r.Failure? ==> r.error.ValueError?
    ensures r.Success? ==> |r.value| == DurationCount(cps)
  {
    if |cps| == 0 then Failure(ValueError("need at least one array to concatenate")) else Success(ConcatDiffs(cps))
  }

  /** Sum of the spans of the non-empty sessions. */
  function TotalSpan(cps: seq<Vec>): real
    decreases |cps|
  {
    if |cps| == 0 then 0.0
    else (if |cps[0]| == 0 then 0.0 else cps[0][|cps[0]| - 1] - cps[0][0]) + TotalSpan(cps[1..])
  }

  /** The block durations add up to the time the sessions' changepoints
      span, and there is one fewer duration than changepoints per session. */
  lemma {:induction false} BlockDurationsTotal(cps: seq<Vec>)
    requires |cps| > 0
    ensures Sum(BlockDurations(cps).value) == TotalSpan(cps)
  {
    ConcatDiffsSum(cps);
  }

  lemma {:induction false} ConcatDiffsSum(cps: seq<Vec>)
    ensures Sum(ConcatDiffs(cps)) == TotalSpan(cps)
    decreases |cps|
  {
    if |cps| > 0 {
      ConcatDiffsSum(cps[1..]);
      SumAppend(Diff(cps[0]), ConcatDiffs(cps[1..]));
      if |cps[0]| > 0 {
        DiffTelescopes(cps[0]);
      }
    }
  }

  /** Increasing changepoint times give positive durations. */
  lemma {:induction false} IncreasingGivesPositiveDurations(cps: seq<Vec>)
    requires forall s :: 0 <= s < |cps| ==> forall k :: 0 <= k < |cps[s]| - 1 ==> cps[s][k] < cps[s][k + 1]
    ensures forall k :: 0 <= k < |ConcatDiffs(cps)| ==> ConcatDiffs(cps)[k] > 0.0
    decreases |cps|
  {
    if |cps| > 0 {
      IncreasingGivesPositiveDurations(cps[1..]);
      var head := Diff(cps[0]);
      var rest := ConcatDiffs(cps[1..]);
      forall k | 0 <= k < |head + rest|
        ensures (head + rest)[k] > 0.0
      {
        if k >= |head| {
          assert (head + rest)[k] == rest[k - |head|];
        }
      }
    }
  }
}

=== FILE: scoring.dfy ===
/** Scoring one session against a trained basis (`apply_pca_local` and the
    per-session part of `apply_pca_dask`), and the missing-data frame merge
    of `get_changepoints_dask`. Frames are the cleaned, flattened frame
    matrix of the session (frames x d pixels); `comps` the components
    (rank x d). As in the source, the trained mean is not subtracted before
    projecting. */
module Scoring {
  import opened Outcomes
  import opened Matrix
  import opened Masking

  /** Frames after the imputation pass, and the scores computed from them. */
  datatype SessionScores = SessionScores(frames: Mat, scores: Mat)

  /** `scores = frames.dot(components.T)`; with missing data, the
      reconstruction `scores.dot(components)` is zeroed outside
      [lo, hi], copied into the masked cells, and the scores are computed
      once more. There is no further iteration. */
  function ScoreSession(frames: Mat, mask: Option<BoolMat>, comps: Mat, d: nat, lo: real, hi: real): (r: SessionScores)
    requires IsMatrix(frames, |frames|, d) && IsMatrix(comps, |comps|, d)
    requires mask.Some? ==> SameShape(mask.value, frames)
    ensures IsMatrix(r.frames, |frames|, d) && IsMatrix(r.scores, |frames|, |comps|)
    ensures r.scores == Project(r.frames, comps, d)
    ensures mask.None? ==> r.frames == frames
    ensures mask.Some? ==> AgreeOffMask(r.frames, frames, mask.value)
    ensures mask.Some? ==> MaskedInRange(r.frames, mask.value, lo, hi)
    ensures mask.Some? ==> forall i, j :: 0 <= i < |frames| && 0 <= j < d && mask.value[i][j] ==>
      r.frames[i][j] == ZeroOutside(Compose(Project(frames, comps, d), comps, d)[i][j], lo, hi)
  {
    var scores := Project(frames, comps, d);
    if mask.None? then SessionScores(frames, scores)
    else
      var recon := ZeroMatrix(Compose(scores, comps, d), lo, hi);
      var imputed := MaskData(frames, mask.value, recon);
      SessionScores(imputed, Project(imputed, comps, d))
  }

  /** Scoring the same frames twice gives the same scores, and a frame
      matrix whose masked cells already hold the zeroed reconstruction is a
      fixed point of the merge. */
  lemma ScoreSessionMergeIsStable(frames: Mat, mask: BoolMat, comps: Mat, d: nat, lo: real, hi: real)
    requires IsMatrix(frames, |frames|, d) && IsMatrix(comps, |comps|, d)
    requires SameShape(mask, frames)
    ensures var r := ScoreSession(frames, Some(mask), comps, d, lo, hi);
      var recon := ZeroMatrix(Compose(Project(frames, comps, d), comps, d), lo, hi);
      MaskData(r.frames, mask, recon) == r.frames
  {
    var recon := ZeroMatrix(Compose(Project(frames, comps, d), comps, d), lo, hi);
    MaskDataIdempotent(frames, mask, recon);
  }

  /** `get_changepoints_dask` lines 512-514: the masked cells take the raw
      reconstruction `scores.dot(components)` from the stored scores. Unlike
      the scoring pass, no height zeroing is applied. */
  function ChangepointFrames(frames: Mat, mask: BoolMat, scores: Mat, comps: Mat, d: nat): (r: Mat)
    requires IsMatrix(frames, |frames|, d) && IsMatrix(comps, |comps|, d)
    requires IsMatrix(scores, |frames|, |comps|) && SameShape(mask, frames)
    ensures IsMatrix(r, |frames|, d)
    ensures AgreeOffMask(r, frames, mask)
    ensures forall i, j :: 0 <= i < |frames| && 0 <= j < d && mask[i][j] ==> r[i][j] == Compose(scores, comps, d)[i][j]
  {
    MaskData(frames, mask, Compose(scores, comps, d))
  }

  /** A single masked pixel whose reconstruction (2) exceeds max_height (1)
      keeps that value in the changepoint merge but is zeroed by the scoring
      merge. */
  lemma ChangepointMergeDoesNotZero()
    ensures var frames: Mat := [[0.0]];
      var comps: Mat := [[1.0]];
      var scores: Mat := [[2.0]];
      ChangepointFrames(frames, [[true]], scores, comps, 1) == [[2.0]]
      && ScoreSession([[2.0]], Some([[true]]), comps, 1, 0.0, 1.0).frames == [[0.0]]
  {
    UnitReconstruction();
    ChangepointMergeKeeps();
    ScoringMergeZeroes();
  }

  /** With the single component `[1]`, the score of the pixel value 2 is 2
      and so is its reconstruction. */
  lemma UnitReconstruction()
    ensures Compose([[2.0]], [[1.0]], 1)[0][0] == 2.0
    ensures Compose(Project([[2.0]], [[1.0]], 1), [[1.0]], 1)[0][0] == 2.0
  {
    assert Dot([2.0], [1.0]) == 2.0 by {
      assert [2.0][..0] == [];
    }
    assert Column([[1.0]], 0) == [1.0];
    assert Project([[2.0]], [[1.0]], 1)[0] == [2.0];
  }

  lemma ChangepointMergeKeeps()
    requires Compose([[2.0]], [[1.0]], 1)[0][0] == 2.0
    ensures ChangepointFrames([[0.0]], [[true]], [[2.0]], [[1.0]], 1) == [[2.0]]
  {
    var cf := ChangepointFrames([[0.0]], [[true]], [[2.0]], [[1.0]], 1);
    assert cf[0] == [2.0];
  }

  lemma ScoringMergeZeroes()
    requires Compose(Project([[2.0]], [[1.0]], 1), [[1.0]], 1)[0][0] == 2.0
    ensures ScoreSession([[2.0]], Some([[true]]), [[1.0]], 1, 0.0, 1.0).frames == [[0.0]]
  {
    var sf := ScoreSession([[2.0]], Some([[true]]), [[1.0]], 1, 0.0, 1.0).frames;
    assert sf[0][0] == ZeroOutside(2.0, 0.0, 1.0) == 0.0;
    assert sf[0] == [0.0];
  }
}

=== FILE: timestamps.dfy ===
/** `get_timestamps`: where a session's per-frame times come from. An
    extraction file is modelled by its numeric datasets, keyed by path. */
module Timestamps {
  import opened Matrix

  type H5File = map<string, Vec>

  const NewTimestamps := "/timestamps"
  const OldTimestamps := "/metadata/timestamps"

  /** Millisecond timestamps scaled to seconds. */
  function Seconds(ms: Vec): (r: Vec)
    ensures |r| == |ms|
    ensures forall i :: 0 <= i < |ms| ==> r[i] * 1000.0 == ms[i]
  {
    seq(|ms|, i requires 0 <= i < |ms| => ms[i] / 1000.0)
  }

  /** `np.arange(nframes) / fps` */
  function FrameClock(nframes: nat, fps: int): (r: Vec)
    requires fps != 0
    ensures |r| == nframes
    ensures forall i :: 0 <= i < nframes ==> r[i] * (fps as real) == i as real
  {
    seq(nframes, i requires 0 <= i < nframes => (i as real) / (fps as real))
  }

  /** The file's `/timestamps` (current format) take priority over
      `/metadata/timestamps` (format before v0.1.3), both in milliseconds;
      without either, frame `i` is placed at `i / fps` seconds. */
  function GetTimestamps(f: H5File, nframes: nat, fps: int): (r: Vec)
    requires fps != 0
    ensures NewTimestamps in f ==>
      |r| == |f[NewTimestamps]| && forall i :: 0 <= i < |r| ==> r[i] * 1000.0 == f[NewTimestamps][i]
    ensures NewTimestamps !in f && OldTimestamps in f ==>
      |r| == |f[OldTimestamps]| && forall i :: 0 <= i < |r| ==> r[i] * 1000.0 == f[OldTimestamps][i]
    ensures NewTimestamps !in f && OldTimestamps !in f ==>
      |r| == nframes && forall i :: 0 <= i < |r| ==> r[i] * (fps as real) == i as real
  {
    if NewTimestamps in f then Seconds(f[NewTimestamps])
    else if OldTimestamps in f then Seconds(f[OldTimestamps])
    else FrameClock(nframes, fps)
  }

  /** The frame count only matters when the file holds no timestamps. */
  lemma {:induction false} FrameCountOnlyMattersWithoutTimestamps(f: H5File, n: nat, m: nat, fps: int)
    requires fps != 0
    ensures GetTimestamps(f, n, fps) == GetTimestamps(f, m, fps) <==> (NewTimestamps in f || OldTimestamps in f || n == m)
  {
    if NewTimestamps !in f && OldTimestamps !in f && n != m {
      assert |GetTimestamps(f, n, fps)| != |GetTimestamps(f, m, fps)|;
    }
  }

  /** Without stored timestamps and with a positive frame rate, the
      fallback clock starts at 0 and is strictly increasing. */
  lemma FrameClockIncreasing(nframes: nat, fps: int)
    requires fps > 0
    ensures var t := FrameClock(nframes, fps);
      (nframes > 0 ==> t[0] == 0.0) && forall i, j :: 0 <= i < j < nframes ==> t[i] < t[j]
  {
    var t := FrameClock(nframes, fps);
    forall i, j | 0 <= i < j < nframes
      ensures t[i] < t[j]
    {
      assert t[i] * (fps as real) < t[j] * (fps as real);
    }
  }
}

=== FILE: values.dfy ===
/** Python values as they appear in configuration dictionaries, with the
    parts of Python's semantics the modelled code relies on: truthiness,
    `==`, `dict.get`, `dict[key]`, `tuple(...)` and `str.lower()`. */
module PyValues {
  import opened Outcomes

  datatype Value =
    | VNone
    | VBool(b: bool)
    | VInt(i: int)
    | VReal(r: real)
    | VStr(s: string)
    | VList(items: seq<Value>)
    | VTuple(items: seq<Value>)
      /** The structuring element built by `select_strel` from its argument
          list; the function itself is not part of this model. */
    | VStrel(args: seq<Value>)

  type Dict = map<string, Value>

  /** Python truthiness (`if v:`). */
  predicate Truthy(v: Value) {
    match v
    case VNone => false
    case VBool(b) => b
    case VInt(i) => i != 0
    case VReal(r) => r != 0.0
    case VStr(s) => s != ""
    case VList(items) => items != []
    case VTuple(items) => items != []
    case VStrel(_) => true
  }

  predicate IsNumber(v: Value) {
    v.VBool? || v.VInt? || v.VReal?
  }

  function NumberOf(v: Value): real
    requires IsNumber(v)
  {
    match v
    case VBool(b) => if b then 1.0 else 0.0
    case VInt(i) => i as real
    case VReal(r) => r
  }

  /** Python `==`: numbers compare by value across bool/int/float, tuples
      and lists compare element-wise but never equal each other. */
  predicate PyEq(a: Value, b: Value)
    decreases a
  {
    if IsNumber(a) && IsNumber(b) then NumberOf(a) == NumberOf(b)
    else match a
      case VNone => b.VNone?
      case VStr(s) => b.VStr? && b.s == s
      case VList(xs) => b.VList? && ItemsEq(xs, b.items)
      case VTuple(xs) => b.VTuple? && ItemsEq(xs, b.items)
      case VStrel(xs) => b == a
      case _ => false
  }

  predicate ItemsEq(xs: seq<Value>, ys: seq<Value>)
    decreases xs
  {
    |xs| == |ys| && (|xs| == 0 || (PyEq(xs[0], ys[0]) && ItemsEq(xs[1..], ys[1..])))
  }

  /** `d.get(key, default)` */
  function Get(d: Dict, key: string, default: Value): (v: Value)
    ensures key in d ==> v == d[key]
    ensures key !in d ==> v == default
  {
    if key in d then d[key] else default
  }

  /** `d[key]`, which raises `KeyError` for an absent key. */
  function Index(d: Dict, key: string): (r: Result<Value>)
    ensures r.Success? <==> key in d
    ensures r.Success? ==> r.value == d[key]
    ensures r.Failure? ==> r.error == KeyError(key)
  {
    if key in d then Success(d[key]) else Failure(KeyError(key))
  }

  /** Where a dict literal that reads `keys` in order first raises
      `KeyError`: the position of the first key `d` lacks, or `|keys|`
      when it has them all. */
  function FirstMissingAt(d: Dict, keys: seq<string>): (i: nat)
    ensures i <= |keys|
    ensures forall j :: 0 <= j < i ==> keys[j] in d
    ensures i < |keys| ==> keys[i] !in d
  {
    if |keys| == 0 || keys[0] !in d then 0 else 1 + FirstMissingAt(d, keys[1..])
  }

  /** `tuple(v)` */
  function ToTuple(v: Value): (r: Result<Value>)
    ensures r.Success? <==> (v.VList? || v.VTuple? || v.VStr?)
    ensures r.Success? ==> r.value.VTuple?
    ensures (v.VList? || v.VTuple?) ==> r == Success(VTuple(v.items))
    ensures v.VStr? ==> r.Success? && |r.value.items| == |v.s|
    ensures v.VStr? ==> forall i :: 0 <= i < |v.s| ==> r.value.items[i] == VStr([v.s[i]])
  {
    match v
    case VList(items) => Success(VTuple(items))
    case VTuple(items) => Success(VTuple(items))
    case VStr(s) => Success(VTuple(seq(|s|, i requires 0 <= i < |s| => VStr([s[i]]))))
    case _ => Failure(TypeError("object is not iterable"))
  }

  /** `str.lower()` on ASCII letters. */
  function Lower(s: string): (r: string)
    ensures |r| == |s|
    ensures forall i :: 0 <= i < |s| && 'A' <= s[i] <= 'Z' ==> r[i] == (s[i] as int + 32) as char
    ensures forall i :: 0 <= i < |s| && !('A' <= s[i] <= 'Z') ==> r[i] == s[i]
  {
    seq(|s|, i requires 0 <= i < |s| => if 'A' <= s[i] <= 'Z' then (s[i] as int + 32) as char else s[i])
  }

  /** `needle in haystack` for strings. */
  predicate Contains(haystack: string, needle: string) {
    exists i :: 0 <= i <= |haystack| && OccursAt(haystack, needle, i)
  }

  predicate OccursAt(haystack: string, needle: string, i: int) {
    0 <= i <= |haystack| - |needle| && haystack[i..i + |needle|] == needle
  }

  /** The `str` values of a list of paths, as stored in a config dict. */
  function StrList(paths: seq<string>): (v: Value)
    ensures v.VList? && |v.items| == |paths|
    ensures forall i :: 0 <= i < |paths| ==> v.items[i] == VStr(paths[i])
  {
    VList(seq(|paths|, i requires 0 <= i < |paths| => VStr(paths[i])))
  }
}
